=== FILE: README.md ===
# MH Computer chat worker: a Dafny model

This project models the request-handling core of the Cloudflare worker
behind `mhcomputer.org`. There are three parts:

- **The chat endpoint** (`ai_handler_enhanced.ts`), in the order it works:
  - the per-address daily rate limiter: a text counter under
    `ratelimit:<ip>:<date>`, 100 requests a day;
  - the checks on the request body: a message is required and may be at most 500 characters;
  - loading the conversation and picking the website context, which is
    cached under `cache:website_context` and built from at most 5 pages of
    300 characters;
  - a system prompt for new conversations only;
  - the model call and its apology fallback;
  - saving the conversation cut to its last 10 messages;
  - the analytics record and running total, and the dashboard's paginated read.
- **The older chat endpoint** (`ai_handler.ts`). It has no limiter and no
  length cap, keeps the whole history, and rebuilds the context from up to
  10 pages of 500 characters on every request.
- **Routing and the static site** (`index.ts`, `html_handler.ts`):
  - the `www.` redirect and the domain check;
  - the order in which `fetch` dispatches;
  - the 404 for unknown `/api/` paths;
  - the path-to-object-key rewriting;
  - content types and cache policies;
  - the 404/304 decisions.

The worker's state is modelled as data: the KV namespace is a
`map<string, string>` (module `Kv`), and the site bucket is a listing plus a
map of objects (`WebsiteContext.Bucket`). Each handler is a pure function
from a request and a store to a reply and a new store. Things the worker
draws from outside become parameters of the handler:

- the date, the time and the response time;
- the ids made from `Date.now()` and `Math.random()`;
- the inference provider;
- the HTML cleaner;
- the analytics encoder.

JavaScript behaviour that matters is spelled out in module `Js`:

- truthiness of possibly-missing strings;
- `trim` over the ECMAScript white-space set;
- `parseInt` with its `NaN`;
- `toString` on integers.

A Dafny `char` stands for one UTF-16 code unit, as `length` counts them.

Modules: `Strings`, `Js`, `Kv`, `Chat` (messages, a codec standing for
`JSON.stringify`/`JSON.parse` of a message list, `runAIModel`), `RateLimit`,
`UserAgent`, `WebsiteContext`, `Session`, `Analytics`, `EnhancedChat`,
`LegacyChat`, `StaticFiles`, `Router`.

Where the code and its written description disagree, the model follows the code:

- **A stored conversation that does not parse.** `JSON.parse` throws
  inside the handler's `try`, so the reply is a 500. It is not reset to
  an empty history (`Session.LoadConversation`, `EnhancedChat.Converse`).
- **A counter that is not a number.** It reads as `NaN`, so the 100-a-day
  cap never applies again to that address that day
  (`RateLimit.UnreadableCounterNeverCaps`).
- **A name with no dot.** `getMimeType` takes the whole name as the
  extension, so `getMimeType("css")` is `text/css`
  (`StaticFiles.DotlessNameIsItsOwnExtension`). No dotless key reaches it
  from `handleStaticFile`, which passes the output of `normalizeKey`: the
  path `/css` is looked up as `css.html` and served as HTML
  (`StaticFiles.DotlessPathIsPage`).
- **`api/` keys.** For a path without percent-escapes, the `api/` branch of
  `normalizeKey` is never reached from `fetch`, because every `/api/` path
  is routed before the static site (`Router.StaticKeysArePlain`). An
  escaped path such as `/api%2Fx` does reach it: `fetch` tests the path
  still encoded, and `normalizeKey` decodes it to `api/x` first.
- **The host check.** It is a plain suffix test, so `xmhcomputer.org` is
  accepted (`Router.SuffixTestAcceptsLookalike`).

## Model

| member | source | states |
|---|---|---|
| Js.TrimEmptyIffBlank | ai_handler_enhanced.ts:263 | `message.trim() === ''` holds exactly when every character of the message is ECMAScript white space, in both directions |
| Js.ParseIntOfIntToString | ai_handler_enhanced.ts:110-117 | a counter written with `toString` reads back with `parseInt` as the same integer, negative or not |
| Js.ParseIntOfNaN | ai_handler_enhanced.ts:111-117 | once `NaN` has been written as a counter it reads back as `NaN` |
| Kv.ReadCountOfWritten | ai_handler_enhanced.ts:110-117 | a counter stored as an integer's text is read back as that integer |
| Chat.DecodeEncode | ai_handler_enhanced.ts:209-228 | the stored form of any message list decodes to the same list (the stringify/parse round trip the store relies on) |
| Chat.RunModel | ai_handler_enhanced.ts:178-191 | the model call fails exactly when the provider throws; a reply with a `response` field gives that text, and one without it gives the fixed apology |
| Chat.MissingMessageIffBlank | ai_handler_enhanced.ts:263 | a present message is rejected as missing exactly when it is all white space |
| RateLimit.CheckRateLimit | ai_handler_enhanced.ts:106-125 | a request is refused exactly when the day's count reads at least 100; a refusal reports 0 remaining and writes nothing; an admitted request reports 100 − count − 1 remaining; no key other than the counter changes |
| RateLimit.CheckCounts | ai_handler_enhanced.ts:110-124 | an admitted request stores the count plus one, and for a readable, non-negative count the remaining allowance lies in [0, 99] |
| RateLimit.CountedWrite | ai_handler_enhanced.ts:113-117 | below the cap, the counter after the check reads exactly one more than before |
| RateLimit.CountAfter | ai_handler_enhanced.ts:106-125 | any step that adds one to a readable counter below 100, applied n ≤ 100 times to a store without the key, leaves the counter reading n |
| RateLimit.DailyQuota | ai_handler_enhanced.ts:106-125 | starting from a day with no counter, the (n+1)-th request for n < 100 is admitted with 100 − n − 1 remaining |
| RateLimit.QuotaExhausted | ai_handler_enhanced.ts:113-115 | after 100 admitted requests the 101st is refused with 0 remaining and leaves the store unchanged |
| RateLimit.UnreadableCounterNeverCaps | ai_handler_enhanced.ts:110-117 | a counter that reads as `NaN` admits the request, reports `NaN` remaining and stays `NaN`: the cap is never reached |
| UserAgent.ParseUserAgent | ai_handler_enhanced.ts:52-76 | case-insensitive classification: Mobile iff "mobile" occurs; Tablet iff not mobile and "tablet"/"ipad" occurs; Edge iff "edg"; Chrome iff "chrome" and not "edg"; Windows iff "windows"; Linux iff "linux" occurs without "windows", "macintosh" or "mac os x"; every verdict is one of the listed names |
| UserAgent.ParseUserAgentIsFirstMatch | ai_handler_enhanced.ts:52-76 | the classification agrees with an independent first-match-wins lookup over the ordered rule tables for device, browser and OS |
| UserAgent.FirstMatchIsEarliest | ai_handler_enhanced.ts:57-73 | a first-match lookup returns the verdict of the earliest rule that matches |
| UserAgent.FirstMatchDefault | ai_handler_enhanced.ts:53-56 | when no rule matches, the lookup returns the default |
| UserAgent.NoPatternDefaults | ai_handler_enhanced.ts:53-76 | an agent that contains none of the patterns is Desktop / Unknown / Unknown |
| UserAgent.MissingAgentDefaults | ai_handler_enhanced.ts:80-81 | a request without a user agent is recorded as "Unknown" and classified Desktop / Unknown / Unknown |
| UserAgent.CollectUserInfo | ai_handler_enhanced.ts:79-103 | the caller's address and agent come from their headers or default to "Unknown"; the device, browser and OS are the agent's classification; the language is the first comma-separated part of the header, and is absent exactly when that part is empty or the header is missing; country, referer, city, region, time zone, coordinates and ASN are copied from their headers |
| WebsiteContext.SelectFiles | ai_handler_enhanced.ts:150-153 | exactly min(`maxFiles`, n) keys are picked, where n counts the `.html` keys among the first `listLimit` listed; each picked key is one of them |
| WebsiteContext.SelectFilesInOrder | ai_handler_enhanced.ts:150-153 | the picked keys start with the `.html` keys of any listing prefix that holds at most `maxFiles` of them, in listing order: the pick is the first `maxFiles` `.html` keys |
| Strings.FilterAppend | ai_handler_enhanced.ts:150-153 | filtering a concatenation is filtering each part in turn, so the `.endsWith('.html')` filter keeps the listing's order |
| WebsiteContext.BuildDigest | ai_handler_enhanced.ts:155-170 | the digest starts with its heading and is no longer than the heading plus the per-file budget of the selected files |
| WebsiteContext.CachedWebsiteContext | ai_handler_enhanced.ts:141-176 | a non-empty cached value is returned as it is and nothing is written; otherwise the digest is built from the bucket and stored under the cache key; afterwards the cache always holds the returned text |
| WebsiteContext.CachedContextIdempotent | ai_handler_enhanced.ts:143-148 | a second lookup returns the same text and store whatever the bucket and cleaner are by then |
| WebsiteContext.CachedDigestBounds | ai_handler_enhanced.ts:150-170 | on a miss the digest draws on at most 5 `.html` files among the first 50 listed, and is at most the heading plus 5 sections of key width + 306 characters |
| WebsiteContext.DigestBound | ai_handler.ts:14-39 | any digest is at most the heading plus `maxFiles` sections, each the longest listed key plus `maxChars + 6` characters |
| WebsiteContext.UncachedWebsiteContext | ai_handler.ts:14-39 | the older digest starts with its heading and is bounded by at most 10 files of 500 characters among the first 100 listed |
| Session.LoadConversation | ai_handler_enhanced.ts:219-228 | an absent or empty entry loads as the empty conversation; any other entry loads as its decoding |
| Session.WriteThenLoad | ai_handler_enhanced.ts:209-228 | writing a conversation and loading it back gives the same messages, and no other key changes |
| Session.StoreConversation | ai_handler_enhanced.ts:209-217 | loading after a save gives the last min(10, n) messages, a suffix of what was saved; only the conversation's key changes |
| Session.StoreFullConversation | ai_handler.ts:71-76 | loading after the older handler's save gives back every message; only the conversation's key changes |
| Session.StoreConversationKeepsBound | ai_handler_enhanced.ts:209-217 | if every stored conversation holds at most 10 messages, it still does after any save |
| Session.BoundedAfterWrites | ai_handler_enhanced.ts:209-217 | writes that touch one conversation and no other conversation key keep the 10-message bound, as long as that conversation is within it |
| Session.FullConversationDropsOldest | ai_handler_enhanced.ts:209-217 | appending a question and answer to a full conversation of 10 stores it without its two oldest messages |
| Analytics.TokenCount | ai_handler_enhanced.ts:320 | the token estimate is the ceiling of a quarter of the combined length |
| Analytics.SaveAnalytics | ai_handler_enhanced.ts:128-139 | the record is stored under its own key; the running total becomes one more than before (absent counts as 0, `NaN` stays `NaN`); nothing else changes |
| Analytics.QueryDefaults | ai_handler_enhanced.ts:384-385 | without query parameters the page size is 50 and the offset 0 |
| Analytics.ListAnalytics | ai_handler_enhanced.ts:387 | the listing returns at most `limit` keys, all analytics keys of the namespace |
| Analytics.Records | ai_handler_enhanced.ts:390-395 | each record returned is the stored text of one of the keys; when every key still holds a value, the records are exactly those values in key order |
| Strings.Slice | ai_handler_enhanced.ts:389 | `slice(offset, offset + limit)` gives the elements from `offset` in order, stopping exactly at the end bound or at the end of the list, and is empty only when the start is at or past either |
| Analytics.Window | ai_handler_enhanced.ts:387-390 | the page's keys are at most `limit` analytics keys of the namespace |
| Analytics.GetAnalytics | ai_handler_enhanced.ts:381-408 | at most `limit` records, each the stored text of an analytics key; the total is the running total read with `parseInt`, 0 when absent |
| Analytics.PageIsWindow | ai_handler_enhanced.ts:387-395 | the page equals the records at positions [offset, offset + limit) of the full analytics listing: listing only `limit + offset` keys first loses nothing |
| EnhancedChat.ResolveContext | ai_handler_enhanced.ts:289 | a caller-supplied context is used as it is with the store untouched; otherwise the cached lookup runs, and only the cache key may change |
| EnhancedChat.Converse | ai_handler_enhanced.ts:282-339 | the turn after validation is answered or a 500; a 500 changes at most the cache; an answer reports the allowance it was given; only the cache, conversation, analytics and total keys may change, and not the cache when a context was supplied |
| EnhancedChat.Finish | ai_handler_enhanced.ts:303-324 | a provider failure is a 500 with nothing written; an answer is returned, the conversation is saved as its last 10 messages with the answer appended, the total goes up by one and an analytics record is filed; only those three keys change |
| EnhancedChat.Validate | ai_handler_enhanced.ts:263-280 | the message is required exactly when it is missing or blank; it is too long exactly when it is present, not blank and over 500; it passes exactly when neither holds |
| EnhancedChat.AfterRateCheck | ai_handler_enhanced.ts:260-280 | a body that does not parse is a 500 and a rejected message its 400, both with the store untouched; otherwise only the cache, conversation, analytics and total keys may change |
| EnhancedChat.Admit | ai_handler_enhanced.ts:243-258 | the reply is 429 exactly when the day's count is at least 100, and then nothing is written; no key outside the turn's five may change |
| EnhancedChat.HandleAIChat | ai_handler_enhanced.ts:230-258 | non-POST is 405 with nothing written; 429 exactly for a POST from an address at its cap; only the turn's keys may change |
| EnhancedChat.RejectedMessageIsCharged | ai_handler_enhanced.ts:243-280 | a missing, blank or overlong message gets a 400 after the rate counter was already incremented, and nothing else is written |
| EnhancedChat.AdmitReachesConverse | ai_handler_enhanced.ts:243-289 | an admitted request with a usable message runs the turn on the store the rate check left, with the remaining allowance the check computed |
| EnhancedChat.ConverseAnswers | ai_handler_enhanced.ts:284-324 | once the history loads, a provider failure is a 500; an answer is returned and saved after the asked messages, and the total goes up by one |
| EnhancedChat.RateCheckKeepsHistory | ai_handler_enhanced.ts:243-287 | the rate check does not change which history loads |
| EnhancedChat.AnsweredTurn | ai_handler_enhanced.ts:243-311 | the model is asked the history (primed when empty) plus the message; an answer is saved as the last 10 of those messages plus the answer |
| EnhancedChat.TotalSurvivesPreamble | ai_handler_enhanced.ts:243-289 | the rate check and the context lookup leave the running total alone |
| EnhancedChat.AnsweredTurnIsLogged | ai_handler_enhanced.ts:313-324 | an answered turn adds exactly one to the running total and files an analytics record |
| EnhancedChat.NoResponseFieldGetsApology | ai_handler_enhanced.ts:178-191 | a provider result without a `response` field is answered with the apology, saved as the conversation's last message and counted in the total |
| EnhancedChat.UnansweredTurnWritesLittle | ai_handler_enhanced.ts:241-351 | a turn that ends without an answer changes at most the rate counter and the context cache |
| EnhancedChat.FreshConversation | ai_handler_enhanced.ts:282-311 | a request without a conversation id that is answered is stored under the fresh id as exactly [system, user, assistant] |
| EnhancedChat.ContinuedConversation | ai_handler_enhanced.ts:284-311 | a continued conversation gets the question and answer appended and keeps its last 10; a full one loses exactly its two oldest messages |
| EnhancedChat.AdmittedKeepsCounter | ai_handler_enhanced.ts:243-258 | after an admitted check the rest of the turn leaves the counter as the check wrote it and reports the check's remaining allowance |
| EnhancedChat.AdmittedSkipsCounter | ai_handler_enhanced.ts:260-324 | nothing after the rate check writes the caller's rate counter |
| EnhancedChat.FirstTurnOfTheDay | ai_handler_enhanced.ts:106-124 | an address's first request of the day sets its counter to 1 and an answer reports 99 remaining |
| EnhancedChat.ConverseKeepsCache | ai_handler_enhanced.ts:289 | with a caller-supplied context the turn leaves the context cache as it was |
| EnhancedChat.ConverseWithContext | ai_handler_enhanced.ts:289-296 | with a caller-supplied context and an empty history, the saved conversation starts with the system prompt built from that context |
| EnhancedChat.ContextOverrideSkipsCache | ai_handler_enhanced.ts:289-296 | for an admitted request with its own context the cache is neither read nor written, and a new conversation's system prompt is built from that context |
| EnhancedChat.AnsweredConversationBounded | ai_handler_enhanced.ts:209-217 | an answered turn leaves its conversation loadable with at most 10 messages |
| EnhancedChat.TurnPreservesBound | ai_handler_enhanced.ts:230-352 | if every stored conversation holds at most 10 messages before a request, it still does after it |
| EnhancedChat.KeysDistinct | ai_handler_enhanced.ts:108-130 | rate counters, the context cache, conversations, analytics records and the total never share a key |
| LegacyChat.Asked | ai_handler.ts:117-127 | the model is sent the whole history with the message after it, or the system prompt and the message when the history is empty |
| LegacyChat.ContextFor | ai_handler.ts:115 | a caller-supplied context is used as it is; otherwise the older digest is built afresh from the bucket |
| LegacyChat.Converse | ai_handler.ts:108-136 | the turn for a present message is answered or a 500; a 500 writes nothing; only the conversation key may change |
| LegacyChat.Finish | ai_handler.ts:129-136 | a provider failure is a 500 with nothing written; an answer is saved with the whole asked conversation plus the answer; only the conversation key changes |
| LegacyChat.HandleChat | ai_handler.ts:89-162 | non-POST is 405; a body that does not parse is 500; the message is required exactly when missing or blank; anything not answered writes nothing; only the conversation key may change |
| LegacyChat.HandleReachesConverse | ai_handler.ts:97-113 | a present message of any length reaches the turn: there is no length cap |
| LegacyChat.AnsweredTurn | ai_handler.ts:108-136 | the model sees the history (primed when empty) and the message; an answer is saved as all of those plus the answer |
| LegacyChat.NoResponseFieldGetsApology | ai_handler.ts:40-53 | a provider result without a `response` field is answered with the apology, saved as the conversation's last message |
| LegacyChat.AnsweredTurnGrows | ai_handler.ts:117-136 | an answered turn makes the stored conversation 3 messages long from empty and 2 longer otherwise |
| LegacyChat.ContextOverride | ai_handler.ts:115-122 | a caller-supplied context goes into a new conversation's system prompt as it is |
| LegacyChat.DialogueStep | ai_handler.ts:89-136 | one message sent to a conversation whose provider always answers lengthens it as `Grown` says |
| LegacyChat.DialogueGrows | ai_handler.ts:71-136 | k non-blank messages in a row leave n + 2k stored messages, or 2k + 1 from scratch: nothing is ever dropped |
| StaticFiles.LastSegment | html_handler.ts:31 | the text after the last dot, which contains no dot; the whole name when it has none |
| StaticFiles.LastSegmentUnique | html_handler.ts:31 | the last segment is the only suffix with those properties |
| StaticFiles.LastSegmentAfterDot | html_handler.ts:31 | `base.ext` with a dot-free `ext` has `ext` as its extension |
| StaticFiles.LastSegmentFolds | html_handler.ts:31 | lower-casing and taking the extension commute |
| StaticFiles.MimeType | html_handler.ts:30-33 | the content type is the default or one of the table's types |
| StaticFiles.MimeTypeOfExtension | html_handler.ts:30-33 | `base.ext` gets the table's type for the lower-cased `ext`, or the default when the table has none |
| StaticFiles.MimeTypeIgnoresCase | html_handler.ts:31 | names that differ only in letter case get the same content type |
| StaticFiles.DotlessNameIsItsOwnExtension | html_handler.ts:31 | a name without a dot is looked up as an extension by itself |
| StaticFiles.DotlessExample | html_handler.ts:5-33 | `getMimeType("css")` is `text/css`: a bare extension is its own extension |
| StaticFiles.DotlessPathIsPage | html_handler.ts:43-67 | the path `/css` is looked up as the key `css.html`, whose type is HTML: no dotless key reaches `getMimeType` from the handler |
| StaticFiles.CacheControl | html_handler.ts:80-88 | immutable exactly for asset extensions matched case-insensitively; revalidate exactly for other keys ending `.html` case-sensitively; `no-cache` exactly for the rest |
| StaticFiles.AssetIffExtension | html_handler.ts:81 | a key is an asset exactly when it has a dot and its lower-cased extension is in the asset set |
| StaticFiles.AssetExtensionsKnown | html_handler.ts:3-28 | every asset extension has an entry in the content-type table |
| StaticFiles.AssetsHaveKnownTypes | html_handler.ts:30-88 | an asset gets its table type and the immutable policy |
| StaticFiles.PageRevalidates | html_handler.ts:83-84 | `x.html` is an HTML page that must be revalidated |
| StaticFiles.UpperCasePageNotCached | html_handler.ts:80-88 | `x.HTML` is served as HTML but with `no-cache`, since the page test is case-sensitive |
| StaticFiles.CollapseSlashes | html_handler.ts:67 | collapsing never lengthens the key and keeps its first character |
| StaticFiles.CollapsedHasNoDoubleSlash | html_handler.ts:67 | after collapsing no two slashes are adjacent |
| StaticFiles.CollapseIdentityIff | html_handler.ts:67 | collapsing leaves a key unchanged exactly when it has no doubled slash |
| StaticFiles.CollapseDoubleSlash | html_handler.ts:67 | `a//b` and `a/b` collapse to the same key |
| StaticFiles.CollapseKeepsOtherChars | html_handler.ts:67 | collapsing neither adds nor removes any character other than `/` |
| StaticFiles.WithHtml | html_handler.ts:54-56 | a key already ending with `.html` is kept; any other gains the whole five-character `.html` |
| StaticFiles.MarkQuery | html_handler.ts:43-53 | the key changes exactly when it has one `@` followed by something other than `&`; then it gains one character, an `&` right after the `@`, and deleting it gives the key back |
| StaticFiles.MarkedQuery | html_handler.ts:43-53 | `base@query`, with no other `@` and a query not starting with `&`, is marked as `base@&query` |
| StaticFiles.MarkQueryIdempotent | html_handler.ts:43-53 | rewriting twice is rewriting once; after the rewrite a lone `@` with text after it is followed by `&` |
| StaticFiles.Rewrite | html_handler.ts:43-65 | a key with `@` is the marked key completed with `.html`; one with `&` but no `@`, or without a dot, is completed with `.html`; a dotted key without either is unchanged; the result always has a dot |
| StaticFiles.QueryKeyIsPage | html_handler.ts:43-67 | a non-`api/` key with `@` is looked up as the marked key completed with `.html`, slashes collapsed |
| StaticFiles.AmpersandKeyIsPage | html_handler.ts:58-67 | a non-`api/` key with `&` and no `@` is completed with `.html` and slashes collapsed; no `&` is inserted |
| StaticFiles.QueryPathIsPage | html_handler.ts:43-67 | a slash-free, dot-free `/base@query` whose query does not start with `&` is looked up as `base@&query.html` |
| StaticFiles.AmpersandPathIsPage | html_handler.ts:58-67 | a slash-free, dot-free `/name` with `&` and no `@` is looked up as `name.html` |
| StaticFiles.RawKey | html_handler.ts:37 | the path without its leading slash, or `index.html` for `/` and the empty path |
| StaticFiles.RootIsIndex | html_handler.ts:37 | `/` and the empty path name `index.html` |
| StaticFiles.ApiKeysUntouched | html_handler.ts:39-41 | `/api/...` maps to `api/...` with no suffix and no collapsing |
| StaticFiles.NormalizeKey | html_handler.ts:36-67 | every non-`api/` key has no doubled slash and has a dot; with `@`, `&` or no dot it ends `.html`; otherwise it only loses doubled slashes |
| StaticFiles.PrettyPathIsPage | html_handler.ts:63-65 | `/name` and `/name.html` map to the same key |
| StaticFiles.HandleStaticFile | html_handler.ts:104-145 | 404 exactly when the key is missing; the 404 page exactly when a missing key ends `.html` and `404.html` exists; 304 exactly when the object exists and a non-empty `If-None-Match` equals its tag; otherwise the object is served with its key's type and policy |
| StaticFiles.RevalidationRoundTrip | html_handler.ts:134-143 | sending back a served object's tag gets a 304 with the same cache policy |
| StaticFiles.StaleTagIsServed | html_handler.ts:134-145 | a missing or different tag gets the object again |
| StaticFiles.MissingAssetIsPlain | html_handler.ts:111-116 | a missing object whose key is not a page gets the plain 404 even when the site has a 404 page |
| StaticFiles.PrettyPathServesPage | html_handler.ts:104-116 | `/name` and `/name.html` get the same reply |
| Router.DomainRedirect | index.ts:53-65 | a redirect to `https://mhcomputer.org` + path + query exactly for `www.mhcomputer.org`; "Domain not supported" exactly for hosts not ending with `mhcomputer.org`; continue exactly otherwise |
| Router.Dispatch | index.ts:67-95 | the router answers with the domain reply exactly when the domain check gives one |
| Router.RedirectTargetIsServed | index.ts:53-65 | the redirect does not loop: its target on `mhcomputer.org` passes the domain check and is routed as on any other accepted host |
| Router.DomainCheckFirst | index.ts:72-79 | a foreign host gets a 404 even for an OPTIONS request |
| Router.WwwRedirects | index.ts:56-58 | the `www.` host is redirected with its path and query for every method |
| Router.PreflightOnAnyPath | index.ts:77-79 | OPTIONS on an accepted host gets the preflight whatever the path |
| Router.SuffixTestAcceptsLookalike | index.ts:60 | a host that only ends with `mhcomputer.org`, such as `xmhcomputer.org`, passes the domain check |
| Router.ApiRoutes | index.ts:81-90 | the three chat paths reach their handlers |
| Router.OtherRoutes | index.ts:81-94 | the invalid-endpoint reply is given exactly for other `/api/` paths; the static site gets exactly the paths outside `/api/` |
| Router.UnknownApiPathIs404 | index.ts:10-41 | any other `/api/` path is a 404, whatever the method |
| Router.StaticKeysArePlain | index.ts:81-94 | for a path without percent-escapes, a request that reaches the static site never has an `api/` key, so its key has no doubled slash and has a dot |

## Left out

- **KV expiry.** Time-to-live expiry of counters, conversations, cache
  entries and records is not modelled: an entry stays until overwritten.
- **Concurrency.** Races between concurrent requests on the counter and
  the total are left out, because requests are modelled one after another.
- **Outside inputs.** The clock, `Math.random`, the inference provider, the
  HTML-stripping regular expressions and the analytics encoder are
  parameters. The model proves nothing about what they return.
- **JSON.** JSON is replaced by a length-prefixed codec with a proved round
  trip. Malformed stored text is any text that codec rejects.
- **Unknown content.** The provider's result is reduced to three cases: it
  threw, it had a text `response` field, or it lacked one.
- **EnhancedChat.Finish:** a `response` field that is not text, such as
  `null`, is not modelled. The source saves the conversation with that value
  (ai_handler_enhanced.ts:311). It then throws at the token estimate
  (ai_handler_enhanced.ts:320), so the reply is a 500 sent after the
  conversation was written.
- **EnhancedChat.UnansweredTurnWritesLittle:** it covers only the three
  modelled provider results. With a non-text `response` field, the source's
  500 comes after the conversation is saved, so that turn writes the
  conversation key too.
- **LegacyChat.Finish:** a non-text `response` field is not modelled. The
  older handler would save it and return it as the reply's `response` with
  a 200.
- **Sampling parameters.** `max_tokens` and `temperature` are not modelled.
- **URL decoding.** `decodeURIComponent` in `normalizeKey` is not modelled:
  paths are taken as already decoded, and a malformed escape that would
  throw is not modelled.
- **Router.StaticKeysArePlain:** routing sees the same decoded path as the
  static handler. In the worker, `fetch` tests the encoded path
  (index.ts:81) while `normalizeKey` decodes it (html_handler.ts:36), so
  an escaped slash, as in `/api%2Fx`, reaches the `api/` branch.
- **UTF-16.** Characters outside the Basic Multilingual Plane are not
  modelled: a `char` is one UTF-16 unit.
- **The health check.** `handleAIHealthCheck` only reports whether the
  provider is reachable.
- **Headers and CORS.** Response headers, CORS header values, content
  lengths and `debugLog` sampling are left out. Only statuses and the
  decisions are modelled.
- **The API catch-all.** `handleApiRequest` reads a POST body as form data,
  falling back to JSON, and always answers 404. Both reads are caught
  (index.ts:24-27). A JSON `null` body makes `Object.entries` throw
  (index.ts:29). That promise is returned without `await` (index.ts:91),
  so the rejection escapes `fetch`'s catch. This failure is not modelled.
- **Text folding.** `toLowerCase` and the `/i` regular expressions are
  modelled as ASCII case folding. This is exact for the patterns and the
  extension table, which are all ASCII.
- **`message.trim` on a non-string.** A non-string message would throw
  and end in a 500. The model takes the message to be a string or absent.
- **Js.ParseIntOfIntToString:** numbers are modelled as unbounded
  integers, not doubles. The round trip holds in JavaScript only below 2^53
  in magnitude. From 10^21 up, `toString` writes exponent form, which
  `parseInt` reads only up to the `e`, and above 2^53 `count + 1` rounds.
  The worker only writes such text when it finds a counter or total of that
  size already stored, which the model admits as any text.
- **Kv.ReadCountOfWritten:** carries the same gap. For example, a stored
  rate counter of `-1000000000000000000000` is admitted, written back as
  `-1e+21` and read next time as -1 (ai_handler_enhanced.ts:110-117). The
  model reads back the count plus one. The same holds for a running total
  of 10^21 or more in `saveAnalytics` (ai_handler_enhanced.ts:135-138).
- **Analytics.GetAnalytics:** `limit` and `offset` are natural numbers.
  A query value that is negative, or that `parseInt` reads as `NaN`, is not
  modelled. The KV list operation's cap of 1000 keys per call is not
  modelled either.
- **Store failures.** A KV or bucket call that throws is not modelled,
  and neither are the 500 replies that would follow.
- **The full system prompts.** Their wording is carried as constants, but
  nothing is proved about it beyond where the context goes.

=== FILE: analytics.dfy ===
/** The analytics log: one record per answered chat turn under its own
    key, a running total, and the paginated read the dashboard uses.

    `JSON.stringify` of a record is an input function `encode`; the page
    hands back the stored record text as it is (`JSON.parse` of text this
    worker wrote is taken to succeed). */
module Analytics {
  import opened Strings
  import opened Js
  import opened Kv
  import opened UserAgent

  const TotalKey := "stats:total_requests"

  const AnalyticsPrefix := "analytics:"

  /** The key of one record. `id` stands for `${Date.now()}:${random}`. */
  function AnalyticsKey(id: string): string {
    AnalyticsPrefix + id
  }

  datatype ChatAnalytics = ChatAnalytics(
    userId: string,
    userInfo: UserInfo,
    conversationId: string,
    message: string,
    response: string,
    tokenCount: int,
    responseTime: int,
    timestamp: string)

  /** `Math.ceil((message.length + response.length) / 4)`. */
  function TokenCount(message: string, response: string): (t: nat)
    ensures 4 * t >= |message| + |response| > 4 * t - 4
  {
    (|message| + |response| + 3) / 4
  }

  /** `saveAnalytics`: writes the record under its own key, then adds one to
      the running total (an absent total counts as zero). */
  function SaveAnalytics(store: Store, id: string, record: ChatAnalytics, encode: ChatAnalytics -> string): (s: Store)
    ensures Get(s, AnalyticsKey(id)) == Some(encode(record))
    ensures TotalKey in s && ReadCount(s, TotalKey) == Succ(ReadCount(store, TotalKey))
    ensures AgreeExcept(s, store, {AnalyticsKey(id), TotalKey})
  {
    var logged := store[AnalyticsKey(id) := encode(record)];
    assert AnalyticsKey(id) != TotalKey by {
      assert AnalyticsKey(id)[0] == 'a' && TotalKey[0] == 's';
    }
    assert ReadCount(logged, TotalKey) == ReadCount(store, TotalKey);
    var total := Succ(ReadCount(logged, TotalKey));
    match total
    case Finite(n) => ReadCountOfWritten(logged, TotalKey, n); logged[TotalKey := NumToString(total)]
    case NaN => ReadCountOfNaN(logged, TotalKey); logged[TotalKey := NumToString(total)]
  }

  /** A query parameter read with `parseInt(value || fallback)`. */
  function QueryNumber(value: Option<string>, fallback: string): Num {
    ParseInt(if Truthy(value) then value.value else fallback)
  }

  /** Without `limit` and `offset` in the query the dashboard gets the first 50 records. */
  lemma QueryDefaults()
    ensures QueryNumber(None, "50") == Finite(50)
    ensures QueryNumber(None, "0") == Finite(0)
  {
    assert IntToString(50) == "50" && IntToString(0) == "0";
    ParseIntOfIntToString(50);
    ParseIntOfIntToString(0);
  }

  predicate IsAnalyticsKey(key: string) {
    StartsWith(key, AnalyticsPrefix)
  }

  /** `list({prefix: 'analytics:', limit})`, given the namespace's keys in the
      order its list operation returns them. */
  function ListAnalytics(keys: seq<string>, limit: nat): (r: seq<string>)
    ensures |r| <= limit
    ensures forall i :: 0 <= i < |r| ==> IsAnalyticsKey(r[i]) && r[i] in keys
  {
    First(Filter(keys, IsAnalyticsKey), limit)
  }

  /** The values stored under any of `keys`. */
  function StoredUnder(store: Store, keys: seq<string>): set<string> {
    set k | k in keys && k in store :: store[k]
  }

  /** The stored text of each key, in order; keys whose value is gone or
      empty are skipped. */
  function Records(store: Store, keys: seq<string>): (r: seq<string>)
    ensures |r| <= |keys|
    ensures forall i :: 0 <= i < |r| ==> r[i] in StoredUnder(store, keys)
    ensures (forall j :: 0 <= j < |keys| ==> Truthy(Get(store, keys[j]))) ==>
      |r| == |keys| && forall j :: 0 <= j < |keys| ==> r[j] == store[keys[j]]
  {
    if |keys| == 0 then []
    else
      var rest := Records(store, keys[1..]);
      assert StoredUnder(store, keys[1..]) <= StoredUnder(store, keys);
      (if Truthy(Get(store, keys[0])) then [store[keys[0]]] else []) + rest
  }

  lemma WindowInListing(xs: seq<string>, n: nat, lo: nat, hi: nat)
    ensures forall k :: k in Slice(First(xs, n), lo, hi) ==> k in xs
  {
    var w := Slice(First(xs, n), lo, hi);
    forall k | k in w ensures k in xs {
      var i :| 0 <= i < |w| && w[i] == k;
      assert w[i] == xs[lo + i];
    }
  }

  /** Every value stored under an analytics key is some record's text. */
  lemma StoredUnderAnalyticsKeys(store: Store, keys: seq<string>, text: string)
    requires text in StoredUnder(store, Filter(keys, IsAnalyticsKey))
    ensures exists k :: k in store && IsAnalyticsKey(k) && store[k] == text
  {
  }

  /** `listResult.keys.slice(offset, offset + limit)` after listing
      `limit + offset` analytics keys. */
  function Window(keys: seq<string>, limit: nat, offset: nat): (w: seq<string>)
    ensures |w| <= limit
    ensures forall k :: k in w ==> k in Filter(keys, IsAnalyticsKey)
  {
    var w := Slice(ListAnalytics(keys, limit + offset), offset, offset + limit);
    WindowInListing(Filter(keys, IsAnalyticsKey), limit + offset, offset, offset + limit);
    w
  }

  datatype AnalyticsReport = AnalyticsReport(records: seq<string>, total: Num, limit: nat, offset: nat)

  /** `handleGetAnalytics` for non-negative `limit` and `offset`: list
      `limit + offset` analytics keys, keep those at positions
      `[offset, offset + limit)`, fetch each, and report the running total. */
  function GetAnalytics(store: Store, keys: seq<string>, limit: nat, offset: nat): (r: AnalyticsReport)
    ensures |r.records| <= limit
    ensures forall i :: 0 <= i < |r.records| ==>
      r.records[i] in StoredUnder(store, Filter(keys, IsAnalyticsKey))
    ensures r.total == QueryNumber(Get(store, TotalKey), "0")
    ensures r.limit == limit && r.offset == offset
  {
    var records := Records(store, Window(keys, limit, offset));
    AnalyticsReport(records, QueryNumber(Get(store, TotalKey), "0"), limit, offset)
  }

  /** The page is the window `[offset, offset + limit)` of all analytics keys
      in listing order: cutting the listing at `limit + offset` first loses
      nothing. */
  lemma PageIsWindow(store: Store, keys: seq<string>, limit: nat, offset: nat)
    ensures GetAnalytics(store, keys, limit, offset).records
      == Records(store, Slice(Filter(keys, IsAnalyticsKey), offset, offset + limit))
  {
    var all := Filter(keys, IsAnalyticsKey);
    assert Window(keys, limit, offset) == Slice(all, offset, offset + limit);
  }
}

=== FILE: chat.dfy ===
/** Chat messages and the text form in which a conversation is stored.

    The worker stores `JSON.stringify(messages)` and reads it back with
    `JSON.parse`. The model replaces JSON by a length-prefixed encoding, one
    record per message: a role letter, the decimal length of the content,
    a colon, then the content. What matters to the rest of the model is
    proved here: decoding an encoding gives back the same messages, and text
    that is not an encoding is rejected rather than misread. */
module Chat {
  import opened Js

  datatype Role = System | User | Assistant

  datatype ChatMessage = ChatMessage(role: Role, content: string)

  type Conversation = seq<ChatMessage>

  function RoleTag(r: Role): char {
    match r
    case System => 's'
    case User => 'u'
    case Assistant => 'a'
  }

  function RoleOfTag(c: char): (r: Option<Role>)
    ensures r.Some? ==> RoleTag(r.value) == c
  {
    if c == 's' then Some(System)
    else if c == 'u' then Some(User)
    else if c == 'a' then Some(Assistant)
    else None
  }

  function EncodeMessage(m: ChatMessage): string {
    [RoleTag(m.role)] + Decimal(|m.content|) + ":" + m.content
  }

  function Encode(c: Conversation): string {
    if |c| == 0 then "" else EncodeMessage(c[0]) + Encode(c[1..])
  }

  /** Reads one message off the front of `s` and returns it with the rest. */
  function DecodeMessage(s: string): (r: Option<(ChatMessage, string)>)
    requires |s| > 0
    ensures r.Some? ==> |r.value.1| < |s|
  {
    match RoleOfTag(s[0])
    case None => None
    case Some(role) =>
      var colon := DigitRun(s, 1, 10);
      if colon == 1 || colon == |s| || s[colon] != ':' then None
      else
        var n := DigitsValue(s, 1, colon, 10);
        if |s| - (colon + 1) < n then None
        else Some((ChatMessage(role, s[colon + 1..colon + 1 + n]), s[colon + 1 + n..]))
  }

  function Decode(s: string): Option<Conversation>
    decreases |s|
  {
    if |s| == 0 then Some([])
    else match DecodeMessage(s)
      case None => None
      case Some((m, rest)) =>
        match Decode(rest)
        case None => None
        case Some(ms) => Some([m] + ms)
  }

  lemma DecodeEncodedMessage(m: ChatMessage, rest: string)
    ensures DecodeMessage(EncodeMessage(m) + rest) == Some((m, rest))
  {
    var n := |m.content|;
    var d := Decimal(n);
    var s := EncodeMessage(m) + rest;
    assert s == [RoleTag(m.role)] + d + (":" + m.content + rest);
    forall k | 0 <= k < |d| ensures s[1 + k] == d[k] {
    }
    assert s[1 + |d|] == ':';
    ReadDecimalAt(s, 1, n);
    var colon := 1 + |d|;
    assert s[colon + 1..colon + 1 + n] == m.content;
    assert s[colon + 1 + n..] == rest;
  }

  /** Decoding undoes encoding: a stored conversation is read back unchanged. */
  lemma {:induction false} DecodeEncode(c: Conversation)
    ensures Decode(Encode(c)) == Some(c)
  {
    if |c| > 0 {
      DecodeEncodedMessage(c[0], Encode(c[1..]));
      DecodeEncode(c[1..]);
      assert [c[0]] + c[1..] == c;
    }
  }

  /** What the inference provider hands back for a list of messages: a
      fault (the call throws), an object with a `response` field, or some
      other value. */
  datatype ModelOutput = Threw | Answer(response: string) | NoResponseField

  /** The reply used when the provider's result has no `response` field. */
  const Apology := "Xin lỗi, tôi không thể trả lời câu hỏi này lúc này."

  /** `runAIModel`: the provider's `response` text, the fixed apology when the
      result has none, and nothing when the provider fails. */
  function RunModel(out: ModelOutput): (r: Option<string>)
    ensures r.None? <==> out.Threw?
    ensures out.Answer? ==> r == Some(out.response)
    ensures out.NoResponseField? ==> r == Some(Apology)
  {
    match out
    case Threw => None
    case Answer(text) => Some(text)
    case NoResponseField => Some(Apology)
  }

  /** A loaded history with the system prompt put in front when, and only
      when, the history is empty. */
  function Prime(history: Conversation, prompt: string): Conversation
  {
    if |history| == 0 then [ChatMessage(System, prompt)] else history
  }

  /** The JSON body of a chat request; each field may be missing. */
  datatype ChatRequest = ChatRequest(message: Option<string>, conversationId: Option<string>, context: Option<string>)

  /** An inbound chat request: its HTTP method, its headers (names lower-cased)
      and its body, which is `None` when `request.json()` rejects it and also
      when it parses to JSON `null`, whose destructuring throws: both end in
      the handler's 500. */
  datatype Request = Request(httpMethod: string, headers: map<string, string>, body: Option<ChatRequest>)

  /** `!message || message.trim() === ''`: no usable message text. */
  predicate MissingMessage(message: Option<string>) {
    !Truthy(message) || Trim(message.value) == ""
  }

  /** A present message fails the test exactly when it is all white space. */
  lemma MissingMessageIffBlank(message: string)
    ensures MissingMessage(Some(message)) <==> IsBlank(message)
  {
    TrimEmptyIffBlank(message);
  }
}

=== FILE: context.dfy ===
/** The website digest that primes a new conversation: the text of the
    first few `.html` objects of the site's bucket, each cut to a fixed
    number of characters. The chat handler caches it in the key-value
    namespace; the older handler rebuilds it on every call.

    The HTML cleaner (script/style removal, tag stripping, white-space
    collapsing) is an input function `clean`: its regular-expression
    semantics are not part of the model. */
module WebsiteContext {
  import opened Strings
  import opened Js
  import opened Kv

  /** The site's object bucket: its keys in the order its list operation
      returns them, and the text of each object that can be fetched. */
  datatype Bucket = Bucket(listing: seq<string>, objects: map<string, string>)

  /** How a handler builds the digest: how many keys it lists, how many
      `.html` files it uses, how many cleaned characters each contributes,
      and the heading it starts with. */
  datatype DigestPolicy = DigestPolicy(listLimit: nat, maxFiles: nat, maxChars: nat, header: string)

  /** The chat handler's digest: 50 listed keys, 5 files, 300 characters. */
  const CachedPolicy := DigestPolicy(50, 5, 300, "Nội dung website MH Computer:\n\n")

  /** The older handler's digest: 100 listed keys, 10 files, 500 characters. */
  const UncachedPolicy := DigestPolicy(100, 10, 500, "Nội dung website:\n\n")

  const CacheKey := "cache:website_context"

  predicate IsHtml(key: string) {
    EndsWith(key, ".html")
  }

  /** `list({limit}).objects.filter(endsWith('.html')).slice(0, maxFiles)`. */
  function SelectFiles(listing: seq<string>, policy: DigestPolicy): (keys: seq<string>)
    ensures |keys| <= policy.maxFiles
    ensures forall i :: 0 <= i < |keys| ==> IsHtml(keys[i]) && keys[i] in First(listing, policy.listLimit)
    ensures |keys| < policy.maxFiles ==>
      forall k :: k in First(listing, policy.listLimit) && IsHtml(k) ==> k in keys
    ensures |keys| == if |Filter(First(listing, policy.listLimit), IsHtml)| <= policy.maxFiles
      then |Filter(First(listing, policy.listLimit), IsHtml)| else policy.maxFiles
  {
    var listed := First(listing, policy.listLimit);
    var html := Filter(listed, IsHtml);
    assert forall i :: 0 <= i < |listed| && IsHtml(listed[i]) ==> listed[i] in html;
    First(html, policy.maxFiles)
  }

  /** The files are picked in listing order: whenever a front part of the
      listed keys holds at most `maxFiles` `.html` keys, those keys, in the
      order they are listed, are the first ones picked. */
  lemma SelectFilesInOrder(listing: seq<string>, policy: DigestPolicy, j: nat)
    requires j <= |First(listing, policy.listLimit)|
    requires |Filter(First(listing, policy.listLimit)[..j], IsHtml)| <= policy.maxFiles
    ensures var front := Filter(First(listing, policy.listLimit)[..j], IsHtml);
      var keys := SelectFiles(listing, policy);
      |front| <= |keys| && keys[..|front|] == front
  {
    var listed := First(listing, policy.listLimit);
    assert listed == listed[..j] + listed[j..];
    FilterAppend(listed[..j], listed[j..], IsHtml);
  }

  /** One file's part of the digest: `[key]: <cleaned text, cut>` and a blank line. */
  function Section(key: string, text: string, maxChars: nat): (r: string)
    ensures |r| <= |key| + maxChars + 6
  {
    "[" + key + "]: " + Take(text, maxChars) + "\n\n"
  }

  /** The most characters the sections of `keys` can take. */
  function Budget(keys: seq<string>, maxChars: nat): nat {
    if |keys| == 0 then 0 else |keys[0]| + maxChars + 6 + Budget(keys[1..], maxChars)
  }

  /** The sections of the selected files, in order; a file that cannot be
      fetched any more contributes nothing. */
  function Sections(keys: seq<string>, objects: map<string, string>, clean: string -> string, maxChars: nat): (r: string)
    ensures |r| <= Budget(keys, maxChars)
  {
    if |keys| == 0 then ""
    else
      (if keys[0] in objects then Section(keys[0], clean(objects[keys[0]]), maxChars) else "")
      + Sections(keys[1..], objects, clean, maxChars)
  }

  /** The digest a policy builds from a bucket: the heading, then at most
      `maxFiles` sections. */
  function BuildDigest(bucket: Bucket, clean: string -> string, policy: DigestPolicy): (r: string)
    ensures StartsWith(r, policy.header)
    ensures |r| <= |policy.header| + Budget(SelectFiles(bucket.listing, policy), policy.maxChars)
  {
    StartsWithAppend(policy.header, Sections(SelectFiles(bucket.listing, policy), bucket.objects, clean, policy.maxChars));
    policy.header + Sections(SelectFiles(bucket.listing, policy), bucket.objects, clean, policy.maxChars)
  }

  /** With every key at most `width` characters long, `n` sections fit in
      `n * (width + maxChars + 6)` characters. */
  lemma {:induction false} BudgetBound(keys: seq<string>, maxChars: nat, width: nat)
    requires forall i :: 0 <= i < |keys| ==> |keys[i]| <= width
    ensures Budget(keys, maxChars) <= |keys| * (width + maxChars + 6)
  {
    if |keys| > 0 {
      BudgetBound(keys[1..], maxChars, width);
    }
  }

  /** A digest and the namespace after producing it. */
  datatype Fetched = Fetched(context: string, store: Store)

  /** The chat handler's `getWebsiteContext`: a non-empty cached digest is
      returned as it is, without listing the bucket; otherwise the digest is
      rebuilt and written to the cache key. */
  function CachedWebsiteContext(store: Store, bucket: Bucket, clean: string -> string): (r: Fetched)
    ensures Truthy(Get(store, CacheKey)) ==> r == Fetched(store[CacheKey], store)
    ensures !Truthy(Get(store, CacheKey)) ==>
      && r.context == BuildDigest(bucket, clean, CachedPolicy)
      && r.store == store[CacheKey := r.context]
    ensures Truthy(Get(r.store, CacheKey)) && r.store[CacheKey] == r.context
  {
    var cached := Get(store, CacheKey);
    if Truthy(cached) then Fetched(cached.value, store)
    else
      var digest := BuildDigest(bucket, clean, CachedPolicy);
      Fetched(digest, store[CacheKey := digest])
  }

  /** The older handler's `getWebsiteContext`: rebuilt on every call, never stored. */
  function UncachedWebsiteContext(bucket: Bucket, clean: string -> string): (r: string)
    ensures StartsWith(r, UncachedPolicy.header)
    ensures |r| <= |UncachedPolicy.header| + Budget(SelectFiles(bucket.listing, UncachedPolicy), 500)
  {
    BuildDigest(bucket, clean, UncachedPolicy)
  }

  /** Asking for the context twice in a row gives the same text both times,
      and the second call reads only the cache: whatever the bucket or the
      cleaner, it neither lists the bucket nor writes anything. */
  lemma CachedContextIdempotent(store: Store, bucket: Bucket, clean: string -> string,
                                laterBucket: Bucket, laterClean: string -> string)
    ensures var first := CachedWebsiteContext(store, bucket, clean);
      CachedWebsiteContext(first.store, laterBucket, laterClean) == first
  {
  }

  /** The selected files are listed keys, so they are no longer than the longest listed key. */
  lemma SelectedWidth(listing: seq<string>, policy: DigestPolicy, width: nat)
    requires forall i :: 0 <= i < |listing| ==> |listing[i]| <= width
    ensures var files := SelectFiles(listing, policy);
      forall i :: 0 <= i < |files| ==> |files[i]| <= width
  {
    var files := SelectFiles(listing, policy);
    var listed := First(listing, policy.listLimit);
    forall i | 0 <= i < |files| ensures |files[i]| <= width {
      var j :| 0 <= j < |listed| && listed[j] == files[i];
      assert listed[j] == listing[j];
    }
  }

  /** A digest is at most its heading plus `maxFiles` sections, each at most
      the longest listed key plus `maxChars + 6` characters. */
  lemma DigestBound(bucket: Bucket, clean: string -> string, policy: DigestPolicy, width: nat)
    requires forall i :: 0 <= i < |bucket.listing| ==> |bucket.listing[i]| <= width
    ensures |BuildDigest(bucket, clean, policy)| <= |policy.header| + policy.maxFiles * (width + policy.maxChars + 6)
  {
    var files := SelectFiles(bucket.listing, policy);
    SelectedWidth(bucket.listing, policy, width);
    BudgetBound(files, policy.maxChars, width);
    MulMono(|files|, policy.maxFiles, width + policy.maxChars + 6);
  }

  /** On a cache miss the chat handler's digest draws on at most 5 `.html`
      files among the first 50 listed keys, each cut to 300 characters. */
  lemma CachedDigestBounds(store: Store, bucket: Bucket, clean: string -> string, width: nat)
    requires !Truthy(Get(store, CacheKey))
    requires forall i :: 0 <= i < |bucket.listing| ==> |bucket.listing[i]| <= width
    ensures var files := SelectFiles(bucket.listing, CachedPolicy);
      && |files| <= 5
      && (forall i :: 0 <= i < |files| ==> IsHtml(files[i]) && files[i] in First(bucket.listing, 50))
      && |CachedWebsiteContext(store, bucket, clean).context| <= |CachedPolicy.header| + 5 * (width + 306)
  {
    DigestBound(bucket, clean, CachedPolicy, width);
  }

  lemma MulMono(a: nat, b: nat, c: nat)
    requires a <= b
    ensures a * c <= b * c
  {
  }
}

=== FILE: enhanced.dfy ===
/** The chat endpoint as the worker serves it (`ai_handler_enhanced.ts`):
    rate check, body validation, conversation load, cached website context,
    system prompt for new conversations, model call, bounded save, and the
    analytics record. */
module EnhancedChat {
  import opened Strings
  import opened Js
  import opened Kv
  import opened Chat
  import opened RateLimit
  import opened UserAgent
  import opened WebsiteContext
  import opened Session
  import opened Analytics

  /** The longest message accepted, in UTF-16 code units. */
  const MaxMessageLength := 500

  /** What the handler takes from outside the request and the namespace:
      the UTC date and time, the fresh conversation and analytics ids that
      the worker draws from the clock and `Math.random`, the measured
      response time, the site bucket, the HTML cleaner, the inference
      provider and the record encoder. */
  datatype Env = Env(
    today: string,
    now: string,
    freshId: string,
    analyticsId: string,
    elapsed: int,
    bucket: Bucket,
    clean: string -> string,
    infer: Conversation -> ModelOutput,
    encode: ChatAnalytics -> string)

  datatype Reply =
    | Answered(conversationId: string, response: string, remaining: Num)
    | MethodNotAllowed
    | RateLimited
    | MessageRequired
    | MessageTooLong
    | InternalError

  function Status(r: Reply): int {
    match r
    case Answered(_, _, _) => 200
    case MethodNotAllowed => 405
    case RateLimited => 429
    case MessageRequired => 400
    case MessageTooLong => 400
    case InternalError => 500
  }

  datatype Outcome = Outcome(reply: Reply, store: Store)

  /** The lines of `createSystemPrompt` before the website digest. */
  const PromptIntro: seq<string> := [
    "Bạn là trợ lý AI của MH Computer tại mhcomputer.org. \n\nNhiệm vụ của bạn:\n",
    "- Tư vấn về máy tính, laptop, linh kiện PC\n",
    "- Giải thích chi tiết về sản phẩm và dịch vụ\n",
    "- Hỗ trợ chọn cấu hình phù hợp với nhu cầu\n",
    "- Trả lời bằng tiếng Việt, ngắn gọn, rõ ràng\n",
    "- Không được vượt quá 200 từ mỗi câu trả lời\n\nNội dung website:\n"]

  /** The closing line of `createSystemPrompt`, after the digest. */
  const PromptOutro: seq<string> := ["\n\nNếu không tìm thấy thông tin, đề xuất liên hệ hotline hoặc fanpage."]

  /** `createSystemPrompt`: the assistant's instructions around the website digest. */
  function SystemPrompt(context: string): string {
    Concat(PromptIntro + [context] + PromptOutro)
  }

  /** `context || await getWebsiteContext(...)`: a caller-supplied context
      is used as it is and the cache is not consulted. */
  function ResolveContext(store: Store, context: Option<string>, env: Env): (r: Fetched)
    ensures AgreeExcept(r.store, store, {CacheKey})
    ensures Truthy(context) ==> r == Fetched(context.value, store)
  {
    if Truthy(context) then Fetched(context.value, store)
    else CachedWebsiteContext(store, env.bucket, env.clean)
  }

  /** The messages sent to the model: the history (primed when empty) and the user's message. */
  function Asked(history: Conversation, context: string, message: string): Conversation {
    Prime(history, SystemPrompt(context)) + [ChatMessage(User, message)]
  }

  /** The keys a chat turn may write. */
  function TurnKeys(ip: string, env: Env, cid: string): set<string> {
    {RateKey(ip, env.today), CacheKey, ConversationKey(cid), AnalyticsKey(env.analyticsId), TotalKey}
  }

  /** The end of a turn: ask the model, save the conversation with the
      answer appended, and record the analytics. A provider failure ends
      the turn with nothing written. */
  function Finish(asked: Conversation, cid: string, message: string, user: UserInfo, remaining: Num, env: Env, store: Store): (o: Outcome)
    ensures o.reply.Answered? || o.reply == InternalError
    ensures o.reply == InternalError <==> RunModel(env.infer(asked)).None?
    ensures o.reply == InternalError ==> o.store == store
    ensures AgreeExcept(o.store, store, {ConversationKey(cid), AnalyticsKey(env.analyticsId), TotalKey})
    ensures o.reply.Answered? ==>
      && o.reply == Answered(cid, o.reply.response, remaining)
      && RunModel(env.infer(asked)) == Some(o.reply.response)
      && LoadConversation(o.store, cid)
           == Some(LastN(asked + [ChatMessage(Assistant, o.reply.response)], MaxConversationLength))
      && ReadCount(o.store, TotalKey) == Succ(ReadCount(store, TotalKey))
      && Get(o.store, AnalyticsKey(env.analyticsId)).Some?
  {
    match RunModel(env.infer(asked))
    case None => Outcome(InternalError, store)
    case Some(answer) =>
      var saved := StoreConversation(store, cid, asked + [ChatMessage(Assistant, answer)]);
      var record := ChatAnalytics(user.ip, user, cid, message, answer, TokenCount(message, answer), env.elapsed, env.now);
      var logged := SaveAnalytics(saved, env.analyticsId, record, env.encode);
      KeysDistinct("", "", cid, env.analyticsId);
      assert Get(logged, ConversationKey(cid)) == Get(saved, ConversationKey(cid));
      assert LoadConversation(logged, cid) == LoadConversation(saved, cid);
      assert Get(saved, TotalKey) == Get(store, TotalKey);
      AgreeExceptTrans(logged, saved, store, {AnalyticsKey(env.analyticsId), TotalKey}, {ConversationKey(cid)});
      Outcome(Answered(cid, answer, remaining), logged)
  }

  /** The turn once the message has passed validation: load the history
      (a failure is a 500), resolve the context, then finish. */
  function Converse(message: string, body: ChatRequest, user: UserInfo, remaining: Num, env: Env, store: Store): (o: Outcome)
    ensures o.reply.Answered? || o.reply == InternalError
    ensures AgreeExcept(o.store, store, {CacheKey, ConversationKey(ConversationIdOf(body, env.freshId)), AnalyticsKey(env.analyticsId), TotalKey})
    ensures o.reply == InternalError ==> AgreeExcept(o.store, store, {CacheKey})
    ensures o.reply.Answered? ==> o.reply.remaining == remaining
    ensures Truthy(body.context) ==>
      AgreeExcept(o.store, store, {ConversationKey(ConversationIdOf(body, env.freshId)), AnalyticsKey(env.analyticsId), TotalKey})
  {
    var cid := ConversationIdOf(body, env.freshId);
    match LoadHistory(store, body.conversationId)
    case None => Outcome(InternalError, store)
    case Some(history) =>
      var fetched := ResolveContext(store, body.context, env);
      var o := Finish(Asked(history, fetched.context, message), cid, message, user, remaining, env, fetched.store);
      AgreeExceptTrans(o.store, fetched.store, store, {ConversationKey(cid), AnalyticsKey(env.analyticsId), TotalKey}, {CacheKey});
      o
  }

  /** The conversation a request names, or the fresh one. */
  function RequestConversationId(req: Request, env: Env): string {
    if req.body.Some? then ConversationIdOf(req.body.value, env.freshId) else env.freshId
  }

  /** The body checks in order: a missing or blank message, then one
      longer than `MaxMessageLength`; `None` when the message is usable. */
  function Validate(message: Option<string>): (r: Option<Reply>)
    ensures r == Some(MessageRequired) <==> MissingMessage(message)
    ensures r == Some(MessageTooLong) <==> !MissingMessage(message) && |message.value| > MaxMessageLength
    ensures r.None? <==>
      message.Some? && !IsBlank(message.value) && |message.value| <= MaxMessageLength
  {
    if MissingMessage(message) then Some(MessageRequired)
    else
      MissingMessageIffBlank(message.value);
      if |message.value| > MaxMessageLength then Some(MessageTooLong) else None
  }

  /** Everything after a successful rate check: the body must parse and
      carry a usable message. A rejected message writes nothing. */
  function AfterRateCheck(body: Option<ChatRequest>, user: UserInfo, remaining: Num, env: Env, store: Store): (o: Outcome)
    ensures !o.reply.RateLimited? && !o.reply.MethodNotAllowed?
    ensures body.None? ==> o == Outcome(InternalError, store)
    ensures body.Some? && Validate(body.value.message).Some? ==>
      o == Outcome(Validate(body.value.message).value, store)
    ensures body.Some? ==>
      AgreeExcept(o.store, store, {CacheKey, ConversationKey(ConversationIdOf(body.value, env.freshId)), AnalyticsKey(env.analyticsId), TotalKey})
    ensures o.reply.Answered? ==> o.reply.remaining == remaining
  {
    match body
    case None => Outcome(InternalError, store)
    case Some(b) =>
      match Validate(b.message)
      case Some(rejection) => Outcome(rejection, store)
      case None => Converse(b.message.value, b, user, remaining, env, store)
  }

  /** The rate check on the caller's address, then the rest of the turn.
      The check commits its increment before the body is even read. */
  function Admit(body: Option<ChatRequest>, user: UserInfo, env: Env, store: Store): (o: Outcome)
    ensures o.reply != MethodNotAllowed
    ensures o.reply == RateLimited <==> AtLeast(ReadCount(store, RateKey(user.ip, env.today)), DailyRequests)
    ensures o.reply == RateLimited ==> o.store == store
    ensures AgreeExcept(o.store, store, TurnKeys(user.ip, env, if body.Some? then ConversationIdOf(body.value, env.freshId) else env.freshId))
  {
    var rate := CheckRateLimit(store, user.ip, env.today);
    if !rate.check.allowed then Outcome(RateLimited, store)
    else
      var o := AfterRateCheck(body, user, rate.check.remaining, env, rate.store);
      var cid := if body.Some? then ConversationIdOf(body.value, env.freshId) else env.freshId;
      var later := {CacheKey, ConversationKey(cid), AnalyticsKey(env.analyticsId), TotalKey};
      assert AgreeExcept(o.store, rate.store, later);
      AgreeExceptTrans(o.store, rate.store, store, later, {RateKey(user.ip, env.today)});
      o
  }

  /** `handleAIChat`: only POST is served; the caller's details come from
      the request headers. */
  function HandleAIChat(req: Request, env: Env, store: Store): (o: Outcome)
    ensures req.httpMethod != "POST" ==> o == Outcome(MethodNotAllowed, store)
    ensures o.reply == RateLimited <==>
      req.httpMethod == "POST" && AtLeast(ReadCount(store, RateKey(CallerAddress(req.headers), env.today)), DailyRequests)
    ensures o.reply == RateLimited ==> o.store == store
    ensures AgreeExcept(o.store, store, TurnKeys(CallerAddress(req.headers), env, RequestConversationId(req, env)))
  {
    if req.httpMethod != "POST" then Outcome(MethodNotAllowed, store)
    else Admit(req.body, CollectUserInfo(req.headers, env.now), env, store)
  }

  /** A missing, blank or overlong message is refused with a 400, yet the
      rate check before it has already charged the caller one request. */
  lemma RejectedMessageIsCharged(body: Option<ChatRequest>, user: UserInfo, env: Env, store: Store)
    requires !AtLeast(ReadCount(store, RateKey(user.ip, env.today)), DailyRequests)
    requires body.Some? && Validate(body.value.message).Some?
    ensures var o := Admit(body, user, env, store);
      && Status(o.reply) == 400
      && (o.reply == MessageRequired <==> MissingMessage(body.value.message))
      && o.store == CheckRateLimit(store, user.ip, env.today).store
      && AgreeExcept(o.store, store, {RateKey(user.ip, env.today)})
  {
  }

  /** An admitted request with a usable message goes on to the turn proper,
      against the namespace as the rate check left it. */
  lemma AdmitReachesConverse(body: Option<ChatRequest>, user: UserInfo, env: Env, store: Store)
    requires !AtLeast(ReadCount(store, RateKey(user.ip, env.today)), DailyRequests)
    requires body.Some? && Validate(body.value.message).None?
    ensures var rate := CheckRateLimit(store, user.ip, env.today);
      && rate.check.allowed
      && Admit(body, user, env, store)
           == Converse(body.value.message.value, body.value, user, rate.check.remaining, env, rate.store)
  {
  }

  /** Once the history loads, the turn asks the model about the history,
      the resolved context and the message, and saves what it answers. */
  lemma ConverseAnswers(message: string, body: ChatRequest, user: UserInfo, remaining: Num, env: Env, store: Store, history: Conversation)
    requires LoadHistory(store, body.conversationId) == Some(history)
    ensures
      var fetched := ResolveContext(store, body.context, env);
      var asked := Asked(history, fetched.context, message);
      var answer := RunModel(env.infer(asked));
      var cid := ConversationIdOf(body, env.freshId);
      var o := Converse(message, body, user, remaining, env, store);
      && (answer.None? <==> o.reply == InternalError)
      && (answer.Some? ==>
            && o.reply == Answered(cid, answer.value, remaining)
            && LoadConversation(o.store, cid)
                 == Some(LastN(asked + [ChatMessage(Assistant, answer.value)], MaxConversationLength))
            && ReadCount(o.store, TotalKey) == Succ(ReadCount(fetched.store, TotalKey))
            && AnalyticsKey(env.analyticsId) in o.store)
  {
    var fetched := ResolveContext(store, body.context, env);
    var asked := Asked(history, fetched.context, message);
    var cid := ConversationIdOf(body, env.freshId);
    assert Converse(message, body, user, remaining, env, store)
      == Finish(asked, cid, message, user, remaining, env, fetched.store);
  }

  /** The rate check writes only its counter, so the history it leaves
      loadable is the one that was there. */
  lemma RateCheckKeepsHistory(store: Store, ip: string, today: string, conversationId: Option<string>)
    ensures LoadHistory(CheckRateLimit(store, ip, today).store, conversationId) == LoadHistory(store, conversationId)
  {
    if Truthy(conversationId) {
      var id := conversationId.value;
      KeysDistinct(ip, today, id, "");
      assert Get(CheckRateLimit(store, ip, today).store, ConversationKey(id)) == Get(store, ConversationKey(id));
    }
  }

  /** The turn for a usable message whose history loads: the model sees the
      history (primed with the system prompt when empty) and the message;
      an answer is saved with the conversation cut to its last ten
      messages; a provider failure is a 500. */
  lemma AnsweredTurn(body: Option<ChatRequest>, user: UserInfo, env: Env, store: Store, history: Conversation)
    requires !AtLeast(ReadCount(store, RateKey(user.ip, env.today)), DailyRequests)
    requires body.Some? && Validate(body.value.message).None?
    requires LoadHistory(store, body.value.conversationId) == Some(history)
    ensures
      var b := body.value;
      var rate := CheckRateLimit(store, user.ip, env.today);
      var fetched := ResolveContext(rate.store, b.context, env);
      var asked := Asked(history, fetched.context, b.message.value);
      var answer := RunModel(env.infer(asked));
      var o := Admit(body, user, env, store);
      && (answer.None? <==> o.reply == InternalError)
      && (answer.Some? ==>
            && o.reply == Answered(ConversationIdOf(b, env.freshId), answer.value, rate.check.remaining)
            && LoadConversation(o.store, ConversationIdOf(b, env.freshId))
                 == Some(LastN(asked + [ChatMessage(Assistant, answer.value)], MaxConversationLength)))
  {
    var b := body.value;
    var rate := CheckRateLimit(store, user.ip, env.today);
    AdmitReachesConverse(body, user, env, store);
    RateCheckKeepsHistory(store, user.ip, env.today, b.conversationId);
    ConverseAnswers(b.message.value, b, user, rate.check.remaining, env, rate.store, history);
  }

  /** The rate check and the context lookup leave the running total alone. */
  lemma TotalSurvivesPreamble(store: Store, ip: string, today: string, context: Option<string>, env: Env)
    ensures var rate := CheckRateLimit(store, ip, today);
      Get(ResolveContext(rate.store, context, env).store, TotalKey) == Get(store, TotalKey)
  {
    KeysDistinct(ip, today, "", "");
  }

  /** An answered turn adds one to the running total and files an
      analytics record under the turn's analytics id. */
  lemma AnsweredTurnIsLogged(body: Option<ChatRequest>, user: UserInfo, env: Env, store: Store, history: Conversation)
    requires !AtLeast(ReadCount(store, RateKey(user.ip, env.today)), DailyRequests)
    requires body.Some? && Validate(body.value.message).None?
    requires LoadHistory(store, body.value.conversationId) == Some(history)
    ensures var o := Admit(body, user, env, store);
      o.reply.Answered? ==>
        && ReadCount(o.store, TotalKey) == Succ(ReadCount(store, TotalKey))
        && AnalyticsKey(env.analyticsId) in o.store
  {
    var b := body.value;
    var rate := CheckRateLimit(store, user.ip, env.today);
    AdmitReachesConverse(body, user, env, store);
    RateCheckKeepsHistory(store, user.ip, env.today, b.conversationId);
    ConverseAnswers(b.message.value, b, user, rate.check.remaining, env, rate.store, history);
    TotalSurvivesPreamble(store, user.ip, env.today, b.context, env);
  }

  /** A provider reply without a `response` field is not a failure: the
      caller gets the apology as the answer, and it is saved as the last
      message of the conversation and counted like any other answer. */
  lemma NoResponseFieldGetsApology(body: Option<ChatRequest>, user: UserInfo, env: Env, store: Store, history: Conversation)
    requires !AtLeast(ReadCount(store, RateKey(user.ip, env.today)), DailyRequests)
    requires body.Some? && Validate(body.value.message).None?
    requires LoadHistory(store, body.value.conversationId) == Some(history)
    requires forall c :: env.infer(c) == NoResponseField
    ensures
      var o := Admit(body, user, env, store);
      var cid := ConversationIdOf(body.value, env.freshId);
      && o.reply == Answered(cid, Apology, CheckRateLimit(store, user.ip, env.today).check.remaining)
      && LoadConversation(o.store, cid).Some?
      && |LoadConversation(o.store, cid).value| > 0
      && LoadConversation(o.store, cid).value[|LoadConversation(o.store, cid).value| - 1]
           == ChatMessage(Assistant, Apology)
      && ReadCount(o.store, TotalKey) == Succ(ReadCount(store, TotalKey))
  {
    var b := body.value;
    var rate := CheckRateLimit(store, user.ip, env.today);
    var fetched := ResolveContext(rate.store, b.context, env);
    var asked := Asked(history, fetched.context, b.message.value);
    assert RunModel(env.infer(asked)) == Some(Apology);
    AnsweredTurn(body, user, env, store, history);
    AnsweredTurnIsLogged(body, user, env, store, history);
    var full := asked + [ChatMessage(Assistant, Apology)];
    var kept := LastN(full, MaxConversationLength);
    assert full == full[..|full| - |kept|] + kept;
    assert kept[|kept| - 1] == full[|full| - 1];
  }

  /** A turn that is not answered writes no conversation, no analytics and
      no total: at most the rate counter and the context cache change. */
  lemma UnansweredTurnWritesLittle(body: Option<ChatRequest>, user: UserInfo, env: Env, store: Store)
    ensures var o := Admit(body, user, env, store);
      !o.reply.Answered? ==> AgreeExcept(o.store, store, {RateKey(user.ip, env.today), CacheKey})
  {
    var o := Admit(body, user, env, store);
    var rate := CheckRateLimit(store, user.ip, env.today);
    if rate.check.allowed && !o.reply.Answered? {
      if body.Some? && Validate(body.value.message).None? {
        AdmitReachesConverse(body, user, env, store);
      }
      assert AgreeExcept(o.store, rate.store, {CacheKey});
      AgreeExceptTrans(o.store, rate.store, store, {CacheKey}, {RateKey(user.ip, env.today)});
    }
  }

  /** The transcript a new conversation is saved as: prompt, question, answer. */
  lemma FreshTranscript(context: string, message: string, answer: string)
    ensures var stored := Asked([], context, message) + [ChatMessage(Assistant, answer)];
      LastN(stored, MaxConversationLength) == stored
        == [ChatMessage(System, SystemPrompt(context)), ChatMessage(User, message), ChatMessage(Assistant, answer)]
  {
  }

  /** A new conversation is stored as exactly the system prompt, the
      question and the answer, under the freshly drawn id. */
  lemma FreshConversation(body: Option<ChatRequest>, user: UserInfo, env: Env, store: Store)
    requires !AtLeast(ReadCount(store, RateKey(user.ip, env.today)), DailyRequests)
    requires body.Some? && Validate(body.value.message).None?
    requires !Truthy(body.value.conversationId)
    ensures var o := Admit(body, user, env, store);
      var rate := CheckRateLimit(store, user.ip, env.today);
      var context := ResolveContext(rate.store, body.value.context, env).context;
      o.reply.Answered? ==>
        && o.reply.conversationId == env.freshId
        && LoadConversation(o.store, env.freshId) == Some([
             ChatMessage(System, SystemPrompt(context)),
             ChatMessage(User, body.value.message.value),
             ChatMessage(Assistant, o.reply.response)])
  {
    AnsweredTurn(body, user, env, store, []);
    var o := Admit(body, user, env, store);
    var rate := CheckRateLimit(store, user.ip, env.today);
    var context := ResolveContext(rate.store, body.value.context, env).context;
    if o.reply.Answered? {
      FreshTranscript(context, body.value.message.value, o.reply.response);
    }
  }

  /** A continued conversation gets the question and the answer appended,
      and keeps its last ten messages; a full one loses its two oldest. */
  lemma ContinuedConversation(body: Option<ChatRequest>, user: UserInfo, env: Env, store: Store, history: Conversation)
    requires !AtLeast(ReadCount(store, RateKey(user.ip, env.today)), DailyRequests)
    requires body.Some? && Validate(body.value.message).None?
    requires Truthy(body.value.conversationId)
    requires LoadConversation(store, body.value.conversationId.value) == Some(history) && |history| > 0
    ensures var o := Admit(body, user, env, store);
      var cid := body.value.conversationId.value;
      o.reply.Answered? ==>
        var turn := [ChatMessage(User, body.value.message.value), ChatMessage(Assistant, o.reply.response)];
        && o.reply.conversationId == cid
        && LoadConversation(o.store, cid) == Some(LastN(history + turn, MaxConversationLength))
        && (|history| == MaxConversationLength ==> LoadConversation(o.store, cid) == Some(history[2..] + turn))
  {
    var cid := body.value.conversationId.value;
    assert LoadHistory(store, body.value.conversationId) == Some(history);
    assert ConversationIdOf(body.value, env.freshId) == cid;
    AnsweredTurn(body, user, env, store, history);
    var o := Admit(body, user, env, store);
    if o.reply.Answered? {
      var rate := CheckRateLimit(store, user.ip, env.today);
      var context := ResolveContext(rate.store, body.value.context, env).context;
      var turn := [ChatMessage(User, body.value.message.value), ChatMessage(Assistant, o.reply.response)];
      assert Asked(history, context, body.value.message.value) == history + [turn[0]];
      AppendTwo(history, turn[0], turn[1]);
      assert LoadConversation(o.store, cid) == Some(LastN(history + turn, MaxConversationLength));
      if |history| == MaxConversationLength {
        assert LastN(history + turn, MaxConversationLength) == (history + turn)[2..];
      }
    }
  }

  /** Past the rate check, the rest of the turn leaves the counter as the
      check wrote it and reports the remaining allowance the check computed. */
  lemma AdmittedKeepsCounter(body: Option<ChatRequest>, user: UserInfo, env: Env, store: Store)
    ensures var rate := CheckRateLimit(store, user.ip, env.today);
      var o := Admit(body, user, env, store);
      o.reply != RateLimited ==>
        && Get(o.store, RateKey(user.ip, env.today)) == Get(rate.store, RateKey(user.ip, env.today))
        && (o.reply.Answered? ==> o.reply.remaining == rate.check.remaining)
  {
    var rate := CheckRateLimit(store, user.ip, env.today);
    if rate.check.allowed {
      AdmittedSkipsCounter(body, user, env, rate.check.remaining, rate.store);
    }
  }

  /** The part of the turn after the rate check never writes a rate counter. */
  lemma AdmittedSkipsCounter(body: Option<ChatRequest>, user: UserInfo, env: Env, remaining: Num, store: Store)
    ensures var o := AfterRateCheck(body, user, remaining, env, store);
      Get(o.store, RateKey(user.ip, env.today)) == Get(store, RateKey(user.ip, env.today))
  {
    if body.Some? {
      var o := AfterRateCheck(body, user, remaining, env, store);
      var cid := ConversationIdOf(body.value, env.freshId);
      KeysDistinct(user.ip, env.today, cid, env.analyticsId);
      AgreeExceptAt(o.store, store, {CacheKey, ConversationKey(cid), AnalyticsKey(env.analyticsId), TotalKey}, RateKey(user.ip, env.today));
    }
  }

  /** The first request of the day from an address leaves 99 and sets its counter to one. */
  lemma FirstTurnOfTheDay(body: Option<ChatRequest>, user: UserInfo, env: Env, store: Store)
    requires RateKey(user.ip, env.today) !in store
    ensures var o := Admit(body, user, env, store);
      && ReadCount(o.store, RateKey(user.ip, env.today)) == Finite(1)
      && (o.reply.Answered? ==> o.reply.remaining == Finite(DailyRequests - 1))
  {
    assert ReadCount(store, RateKey(user.ip, env.today)) == Finite(0);
    CheckCounts(store, user.ip, env.today);
    AdmittedKeepsCounter(body, user, env, store);
  }

  /** Within the turn proper, a context supplied by the caller leaves the
      context cache alone. */
  lemma ConverseKeepsCache(message: string, body: ChatRequest, user: UserInfo, remaining: Num, env: Env, store: Store)
    requires Truthy(body.context)
    ensures Get(Converse(message, body, user, remaining, env, store).store, CacheKey) == Get(store, CacheKey)
  {
    KeysDistinct("", "", ConversationIdOf(body, env.freshId), env.analyticsId);
  }

  /** Within the turn proper, a context supplied by the caller goes into the
      system prompt of a new conversation as it is. */
  lemma ConverseWithContext(message: string, body: ChatRequest, user: UserInfo, remaining: Num, env: Env, store: Store)
    requires Truthy(body.context)
    requires LoadHistory(store, body.conversationId) == Some([])
    ensures var o := Converse(message, body, user, remaining, env, store);
      o.reply.Answered? ==>
        LoadConversation(o.store, ConversationIdOf(body, env.freshId)).value[0]
          == ChatMessage(System, SystemPrompt(body.context.value))
  {
    var o := Converse(message, body, user, remaining, env, store);
    if o.reply.Answered? {
      ConverseAnswers(message, body, user, remaining, env, store, []);
      FreshTranscript(body.context.value, message, o.reply.response);
    }
  }

  /** A context supplied by the caller goes into the system prompt as it is,
      and the context cache is neither read nor written. */
  lemma ContextOverrideSkipsCache(body: Option<ChatRequest>, user: UserInfo, env: Env, store: Store)
    requires !AtLeast(ReadCount(store, RateKey(user.ip, env.today)), DailyRequests)
    requires body.Some? && Validate(body.value.message).None?
    requires Truthy(body.value.context)
    ensures var o := Admit(body, user, env, store);
      && Get(o.store, CacheKey) == Get(store, CacheKey)
      && (LoadHistory(store, body.value.conversationId) == Some([]) && o.reply.Answered? ==>
            LoadConversation(o.store, o.reply.conversationId).value[0]
              == ChatMessage(System, SystemPrompt(body.value.context.value)))
  {
    var b := body.value;
    var rate := CheckRateLimit(store, user.ip, env.today);
    AdmitReachesConverse(body, user, env, store);
    RateCheckKeepsHistory(store, user.ip, env.today, b.conversationId);
    ConverseKeepsCache(b.message.value, b, user, rate.check.remaining, env, rate.store);
    KeysDistinct(user.ip, env.today, "", "");
    if LoadHistory(store, b.conversationId) == Some([]) {
      ConverseWithContext(b.message.value, b, user, rate.check.remaining, env, rate.store);
      AnsweredTurn(body, user, env, store, []);
    }
  }

  /** An answered turn leaves its own conversation loadable and within the bound. */
  lemma AnsweredConversationBounded(body: Option<ChatRequest>, user: UserInfo, env: Env, store: Store)
    ensures var o := Admit(body, user, env, store);
      o.reply.Answered? ==>
        && body.Some?
        && LoadConversation(o.store, ConversationIdOf(body.value, env.freshId)).Some?
        && |LoadConversation(o.store, ConversationIdOf(body.value, env.freshId)).value| <= MaxConversationLength
  {
    var o := Admit(body, user, env, store);
    if o.reply.Answered? {
      var rate := CheckRateLimit(store, user.ip, env.today);
      assert body.Some? && Validate(body.value.message).None?;
      AdmitReachesConverse(body, user, env, store);
      RateCheckKeepsHistory(store, user.ip, env.today, body.value.conversationId);
      var history := LoadHistory(store, body.value.conversationId).value;
      AnsweredTurn(body, user, env, store, history);
    }
  }

  /** Serving a request keeps every stored conversation within the
      ten-message bound. */
  lemma TurnPreservesBound(body: Option<ChatRequest>, user: UserInfo, env: Env, store: Store)
    requires Bounded(store)
    ensures Bounded(Admit(body, user, env, store).store)
  {
    var o := Admit(body, user, env, store);
    var cid := if body.Some? then ConversationIdOf(body.value, env.freshId) else env.freshId;
    var others := {RateKey(user.ip, env.today), CacheKey, AnalyticsKey(env.analyticsId), TotalKey};
    KeysDistinct(user.ip, env.today, cid, env.analyticsId);
    assert TurnKeys(user.ip, env, cid) == {ConversationKey(cid)} + others;
    forall other ensures ConversationKey(other) !in others {
      KeysDistinct(user.ip, env.today, other, env.analyticsId);
    }
    if o.reply.Answered? {
      AnsweredConversationBounded(body, user, env, store);
    } else {
      UnansweredTurnWritesLittle(body, user, env, store);
      assert LoadConversation(o.store, cid) == LoadConversation(store, cid);
    }
    BoundedAfterWrites(store, o.store, cid, others);
  }

  /** The key families are disjoint: a rate counter, the context cache, a
      conversation, an analytics record and the total never share a key. */
  lemma KeysDistinct(ip: string, today: string, cid: string, aid: string)
    ensures RateKey(ip, today) !in {CacheKey, ConversationKey(cid), AnalyticsKey(aid), TotalKey}
    ensures ConversationKey(cid) !in {CacheKey, AnalyticsKey(aid), TotalKey}
    ensures CacheKey != AnalyticsKey(aid) && TotalKey != AnalyticsKey(aid) && CacheKey != TotalKey
  {
    assert RateKey(ip, today)[0] == 'r' && CacheKey[0] == 'c' && TotalKey[0] == 's';
    assert AnalyticsKey(aid)[0] == 'a';
    assert ConversationKey(cid)[0] == 'c' && ConversationKey(cid)[1] == 'o';
    assert CacheKey[1] == 'a';
  }
}

=== FILE: js.dfy ===
/** The few JavaScript value semantics the worker leans on: optional values
    and their truthiness, `String.prototype.trim`, `parseInt` with its `NaN`
    result, and `Number.prototype.toString` for integers. */
module Js {
  import opened Strings

  /** A value that may be `undefined`/`null`. */
  datatype Option<+T> = None | Some(value: T)

  /** A JavaScript number as the worker uses it: an integer or `NaN`.
      Integers are unbounded here, where JavaScript has doubles: a counter
      or total beyond 2^53 in magnitude, which only a stored text the worker
      did not write can produce, behaves differently in the worker (see
      `IntToString`). */
  datatype Num = Finite(value: int) | NaN

  /** `if (v)` on a string that may be absent: absent and `""` are falsy. */
  predicate Truthy(v: Option<string>) {
    v.Some? && v.value != ""
  }

  /** The ECMAScript WhiteSpace and LineTerminator characters, which `trim`
      and `parseInt` skip. */
  predicate IsSpace(c: char) {
    || c == '\t' || c == '\n' || c == '\U{B}' || c == '\U{C}' || c == '\r'
    || c == ' ' || c == '\U{A0}' || c == '\U{1680}'
    || ('\U{2000}' <= c <= '\U{200A}')
    || c == '\U{2028}' || c == '\U{2029}' || c == '\U{202F}' || c == '\U{205F}'
    || c == '\U{3000}' || c == '\U{FEFF}'
  }

  predicate IsBlank(s: string) {
    forall i :: 0 <= i < |s| ==> IsSpace(s[i])
  }

  /** The position of the first character at or after `i` that is not white space. */
  function SkipSpaces(s: string, i: nat): (j: nat)
    requires i <= |s|
    ensures i <= j <= |s|
    ensures forall k :: i <= k < j ==> IsSpace(s[k])
    ensures j < |s| ==> !IsSpace(s[j])
    decreases |s| - i
  {
    if i < |s| && IsSpace(s[i]) then SkipSpaces(s, i + 1) else i
  }

  /** The end of `s[..j]` once its trailing white space is cut off. */
  function KeepUntil(s: string, j: nat): (k: nat)
    requires j <= |s|
    ensures k <= j
    ensures forall i :: k <= i < j ==> IsSpace(s[i])
    ensures k > 0 ==> !IsSpace(s[k - 1])
  {
    if j > 0 && IsSpace(s[j - 1]) then KeepUntil(s, j - 1) else j
  }

  /** `s.trimStart()`: drops the leading white space, keeps the rest. */
  function TrimStart(s: string): (r: string)
    ensures |r| <= |s| && r == s[|s| - |r|..]
    ensures forall i :: 0 <= i < |s| - |r| ==> IsSpace(s[i])
    ensures |r| > 0 ==> !IsSpace(r[0])
  {
    s[SkipSpaces(s, 0)..]
  }

  /** `s.trimEnd()`: drops the trailing white space, keeps the rest. */
  function TrimEnd(s: string): (r: string)
    ensures |r| <= |s| && r == s[..|r|]
    ensures forall i :: |r| <= i < |s| ==> IsSpace(s[i])
    ensures |r| > 0 ==> !IsSpace(r[|r| - 1])
  {
    s[..KeepUntil(s, |s|)]
  }

  function Trim(s: string): string {
    TrimEnd(TrimStart(s))
  }

  /** `s.trim() === ''` holds exactly for the strings made of white space. */
  lemma TrimEmptyIffBlank(s: string)
    ensures Trim(s) == "" <==> IsBlank(s)
  {
  }

  /** The value of a digit in radix 36 (`'a'`/`'A'` is 10); 36 for anything
      that is not a digit in any radix. */
  function DigitValue(c: char): nat {
    if '0' <= c <= '9' then c as nat - '0' as nat
    else if 'a' <= c <= 'z' then c as nat - 'a' as nat + 10
    else if 'A' <= c <= 'Z' then c as nat - 'A' as nat + 10
    else 36
  }

  predicate IsDigitIn(c: char, radix: nat) {
    DigitValue(c) < radix
  }

  predicate AllDigits(s: string, radix: nat) {
    forall i :: 0 <= i < |s| ==> IsDigitIn(s[i], radix)
  }

  /** The end of the run of digits of the radix that starts at `i`. */
  function DigitRun(s: string, i: nat, radix: nat): (j: nat)
    requires i <= |s|
    ensures i <= j <= |s|
    ensures forall k :: i <= k < j ==> IsDigitIn(s[k], radix)
    ensures j < |s| ==> !IsDigitIn(s[j], radix)
    decreases |s| - i
  {
    if i < |s| && IsDigitIn(s[i], radix) then DigitRun(s, i + 1, radix) else i
  }

  /** The number the digits `s[i..j]` denote, most significant digit first. */
  function DigitsValue(s: string, i: nat, j: nat, radix: nat): nat
    requires i <= j <= |s|
    decreases j - i
  {
    if j == i then 0 else DigitsValue(s, i, j - 1, radix) * radix + DigitValue(s[j - 1])
  }

  /** `parseInt(s)` without a radix argument: skip white space, read an
      optional sign, then the magnitude, in radix 16 after a `0x`/`0X`
      prefix and radix 10 otherwise; no digit at all gives `NaN`. */
  function ParseInt(s: string): Num {
    var i := SkipSpaces(s, 0);
    var signed := i < |s| && (s[i] == '-' || s[i] == '+');
    var j := if signed then i + 1 else i;
    var hex := j + 2 <= |s| && s[j] == '0' && (s[j + 1] == 'x' || s[j + 1] == 'X');
    var radix := if hex then 16 else 10;
    var start := if hex then j + 2 else j;
    var end := DigitRun(s, start, radix);
    if end == start then NaN
    else
      var m: int := DigitsValue(s, start, end, radix);
      Finite(if signed && s[i] == '-' then -m else m)
  }

  function DigitChar(d: nat): (c: char)
    requires d < 10
    ensures IsDigitIn(c, 10) && DigitValue(c) == d
  {
    ('0' as int + d) as char
  }

  /** The decimal spelling of a natural number, without leading zeros. */
  function Decimal(n: nat): (d: string)
    ensures |d| >= 1 && AllDigits(d, 10)
    ensures |d| > 1 ==> d[0] != '0'
  {
    if n < 10 then [DigitChar(n)] else Decimal(n / 10) + [DigitChar(n % 10)]
  }

  /** `i.toString()` for an integer, written out in full digits. JavaScript
      switches to exponent form from 10^21 in magnitude, which is not
      modelled. */
  function IntToString(i: int): string {
    if i < 0 then "-" + Decimal(-i) else Decimal(i)
  }

  /** `x.toString()` for a number that may be `NaN`. */
  function NumToString(x: Num): string {
    match x
    case Finite(i) => IntToString(i)
    case NaN => "NaN"
  }

  /** `x + 1`, which leaves `NaN` as it is. */
  function Succ(x: Num): Num {
    match x
    case Finite(i) => Finite(i + 1)
    case NaN => NaN
  }

  /** `x >= k`, which is false for `NaN`. */
  predicate AtLeast(x: Num, k: int) {
    x.Finite? && x.value >= k
  }

  /** A run of digits that ends at `j` is read up to `j`. */
  lemma {:induction false} DigitRunTo(s: string, i: nat, j: nat, radix: nat)
    requires i <= j <= |s|
    requires forall k :: i <= k < j ==> IsDigitIn(s[k], radix)
    requires j < |s| ==> !IsDigitIn(s[j], radix)
    ensures DigitRun(s, i, radix) == j
    decreases j - i
  {
    if i < j {
      DigitRunTo(s, i + 1, j, radix);
    }
  }

  /** The value of a run of digits depends only on the digits. */
  lemma {:induction false} DigitsValueSame(s: string, i: nat, t: string, i': nat, n: nat, radix: nat)
    requires i + n <= |s| && i' + n <= |t|
    requires forall k :: i <= k < i + n ==> s[k] == t[k - i + i']
    ensures DigitsValue(s, i, i + n, radix) == DigitsValue(t, i', i' + n, radix)
  {
    if n > 0 {
      assert s[i + n - 1] == t[i' + n - 1];
      DigitsValueSame(s, i, t, i', n - 1, radix);
    }
  }

  /** A decimal spelling denotes the number it spells. */
  lemma {:induction false} DecimalValue(n: nat)
    ensures DigitsValue(Decimal(n), 0, |Decimal(n)|, 10) == n
  {
    if n >= 10 {
      var d := Decimal(n);
      var e := Decimal(n / 10);
      assert |d| == |e| + 1 && d[|e|] == DigitChar(n % 10);
      forall k | 0 <= k < 0 + |e| ensures d[k] == e[k - 0 + 0] {
      }
      DigitsValueSame(d, 0, e, 0, |e|, 10);
      DecimalValue(n / 10);
    }
  }

  /** The digits of `n` at position `i` of `s`, followed by a non-digit or
      the end, are read as the number they spell. */
  lemma ReadDecimalAt(s: string, i: nat, n: nat)
    requires i + |Decimal(n)| <= |s|
    requires forall k :: i <= k < i + |Decimal(n)| ==> s[k] == Decimal(n)[k - i]
    requires i + |Decimal(n)| < |s| ==> !IsDigitIn(s[i + |Decimal(n)|], 10)
    ensures DigitRun(s, i, 10) == i + |Decimal(n)|
    ensures DigitsValue(s, i, i + |Decimal(n)|, 10) == n
  {
    var d := Decimal(n);
    DigitRunTo(s, i, i + |d|, 10);
    DigitsValueSame(s, i, d, 0, |d|, 10);
    DecimalValue(n);
  }

  /** `parseInt("NaN")` is `NaN`: a counter that has become `NaN` stays unreadable. */
  lemma ParseIntOfNaN()
    ensures ParseInt("NaN") == NaN
  {
    var s := "NaN";
    assert !IsSpace(s[0]) && !IsDigitIn(s[0], 10);
    assert SkipSpaces(s, 0) == 0;
    assert DigitRun(s, 0, 10) == 0;
  }

  /** `parseInt(i.toString()) === i`: a counter survives being stored as text. */
  lemma ParseIntOfIntToString(i: int)
    ensures ParseInt(IntToString(i)) == Finite(i)
  {
    if i < 0 {
      ParseNegative(-i);
    } else {
      ParseNatural(i);
    }
  }

  lemma ParseNatural(n: nat)
    ensures ParseInt(Decimal(n)) == Finite(n)
  {
    var d := Decimal(n);
    assert !IsSpace(d[0]);
    assert SkipSpaces(d, 0) == 0;
    assert 1 < |d| ==> IsDigitIn(d[1], 10);
    ReadDecimalAt(d, 0, n);
  }

  lemma ParseNegative(n: nat)
    ensures ParseInt("-" + Decimal(n)) == Finite(-(n as int))
  {
    var d := Decimal(n);
    var s := "-" + d;
    assert s[0] == '-';
    assert SkipSpaces(s, 0) == 0;
    assert 2 < |s| ==> s[2] == d[1];
    ReadDecimalAt(s, 1, n);
  }
}

=== FILE: kv.dfy ===
/** The key-value namespace the worker keeps its state in, as a plain map
    from key to stored text. Expiry times are not modelled: an expired key
    is a key that is absent from the map. */
module Kv {
  import opened Js

  type Store = map<string, string>

  /** `await kv.get(key)`: the stored text, or `null`. */
  function Get(store: Store, key: string): (v: Option<string>)
    ensures v.Some? <==> key in store
    ensures v.Some? ==> v.value == store[key]
  {
    if key in store then Some(store[key]) else None
  }

  /** The two namespaces hold the same thing under every key outside `keys`. */
  ghost predicate AgreeExcept(s1: Store, s2: Store, keys: set<string>) {
    forall k :: k !in keys ==> Get(s1, k) == Get(s2, k)
  }

  lemma AgreeExceptTrans(s1: Store, s2: Store, s3: Store, a: set<string>, b: set<string>)
    requires AgreeExcept(s1, s2, a) && AgreeExcept(s2, s3, b)
    ensures AgreeExcept(s1, s3, a + b)
  {
  }

  lemma AgreeExceptWiden(s1: Store, s2: Store, a: set<string>, b: set<string>)
    requires AgreeExcept(s1, s2, a) && a <= b
    ensures AgreeExcept(s1, s2, b)
  {
  }

  /** Outside the keys they may differ on, two namespaces read the same. */
  lemma AgreeExceptAt(s1: Store, s2: Store, keys: set<string>, k: string)
    requires AgreeExcept(s1, s2, keys) && k !in keys
    ensures Get(s1, k) == Get(s2, k)
  {
  }

  /** A single write changes only the key written. */
  lemma AgreeExceptWrite(store: Store, key: string, value: string)
    ensures AgreeExcept(store[key := value], store, {key})
  {
  }

  /** `current ? parseInt(current) : 0` for a counter key: an absent or empty
      value counts as zero, any other text is read with `parseInt`. */
  function ReadCount(store: Store, key: string): Num {
    var v := Get(store, key);
    if Truthy(v) then ParseInt(v.value) else Finite(0)
  }

  /** A counter written as `n.toString()` reads back as `n`. */
  lemma ReadCountOfWritten(store: Store, key: string, n: int)
    ensures ReadCount(store[key := IntToString(n)], key) == Finite(n)
  {
    ParseIntOfIntToString(n);
  }

  /** A counter written as `"NaN"` reads back as `NaN`. */
  lemma ReadCountOfNaN(store: Store, key: string)
    ensures ReadCount(store[key := "NaN"], key) == NaN
  {
    ParseIntOfNaN();
  }
}

=== FILE: legacy.dfy ===
/** The older chat endpoint (`ai_handler.ts`): no rate limit, no length cap,
    the whole history kept, and the website digest rebuilt from the bucket
    on every request without a cache. */
module LegacyChat {
  import opened Strings
  import opened Js
  import opened Kv
  import opened Chat
  import opened WebsiteContext
  import opened Session

  /** What the handler takes from outside the request and the namespace:
      the fresh conversation id drawn from the clock and `Math.random`, the
      site bucket, the HTML cleaner and the inference provider. */
  datatype LegacyEnv = LegacyEnv(
    freshId: string,
    bucket: Bucket,
    clean: string -> string,
    infer: Conversation -> ModelOutput)

  datatype Reply =
    | Answered(conversationId: string, response: string)
    | MethodNotAllowed
    | MessageRequired
    | InternalError

  function Status(r: Reply): int {
    match r
    case Answered(_, _) => 200
    case MethodNotAllowed => 405
    case MessageRequired => 400
    case InternalError => 500
  }

  datatype Outcome = Outcome(reply: Reply, store: Store)

  /** The lines of this handler's `createSystemPrompt` before the website digest. */
  const PromptIntro: seq<string> := [
    "Bạn là trợ lý AI thông minh của website mhcomputer.org. Nhiệm vụ của bạn là:\n\n",
    "1. Trả lời các câu hỏi về nội dung website dựa trên context được cung cấp\n",
    "2. Giải thích chi tiết, rõ ràng về sản phẩm, dịch vụ máy tính\n",
    "3. Hỗ trợ khách hàng tìm hiểu về cấu hình máy tính, linh kiện\n",
    "4. Tư vấn chọn máy tính phù hợp với nhu cầu\n",
    "5. Trả lời bằng tiếng Việt, giọng điệu thân thiện và chuyên nghiệp\n\n",
    "Context từ website:\n"]

  /** The closing lines, after the digest. */
  const PromptOutro: seq<string> := [
    "\n\nHãy sử dụng thông tin từ context để trả lời chính xác. ",
    "Nếu không tìm thấy thông tin, hãy thông báo rõ ràng và đề xuất liên hệ trực tiếp."]

  /** This handler's `createSystemPrompt`. */
  function SystemPrompt(context: string): string {
    Concat(PromptIntro + [context] + PromptOutro)
  }

  /** `context || await getWebsiteContext(...)`, where the digest is built
      afresh from the bucket and never stored. */
  function ContextFor(context: Option<string>, env: LegacyEnv): (r: string)
    ensures Truthy(context) ==> r == context.value
    ensures !Truthy(context) ==> r == UncachedWebsiteContext(env.bucket, env.clean)
  {
    if Truthy(context) then context.value else UncachedWebsiteContext(env.bucket, env.clean)
  }

  /** The messages sent to the model: the history (primed when empty) and the user's message. */
  function Asked(history: Conversation, context: string, message: string): (c: Conversation)
    ensures |c| == if |history| == 0 then 2 else |history| + 1
    ensures c[|c| - 1] == ChatMessage(User, message)
    ensures |history| > 0 ==> c[..|history|] == history
    ensures |history| == 0 ==> c[0] == ChatMessage(System, SystemPrompt(context))
  {
    Prime(history, SystemPrompt(context)) + [ChatMessage(User, message)]
  }

  /** Ask the model and save the whole conversation with the answer
      appended; a provider failure writes nothing. */
  function Finish(asked: Conversation, cid: string, env: LegacyEnv, store: Store): (o: Outcome)
    ensures o.reply == InternalError <==> RunModel(env.infer(asked)).None?
    ensures o.reply.Answered? || o.reply == InternalError
    ensures o.reply == InternalError ==> o.store == store
    ensures o.reply.Answered? ==>
      && o.reply == Answered(cid, RunModel(env.infer(asked)).value)
      && LoadConversation(o.store, cid) == Some(asked + [ChatMessage(Assistant, o.reply.response)])
    ensures AgreeExcept(o.store, store, {ConversationKey(cid)})
  {
    match RunModel(env.infer(asked))
    case None => Outcome(InternalError, store)
    case Some(answer) =>
      Outcome(Answered(cid, answer), StoreFullConversation(store, cid, asked + [ChatMessage(Assistant, answer)]))
  }

  /** The turn once the message is known to be present: load the history
      (a failure is a 500), pick the context, then finish. */
  function Converse(message: string, body: ChatRequest, env: LegacyEnv, store: Store): (o: Outcome)
    ensures o.reply.Answered? || o.reply == InternalError
    ensures AgreeExcept(o.store, store, {ConversationKey(ConversationIdOf(body, env.freshId))})
    ensures o.reply == InternalError ==> o.store == store
  {
    match LoadHistory(store, body.conversationId)
    case None => Outcome(InternalError, store)
    case Some(history) =>
      Finish(Asked(history, ContextFor(body.context, env), message), ConversationIdOf(body, env.freshId), env, store)
  }

  /** The conversation a request names, or the fresh one. */
  function RequestConversationId(req: Request, env: LegacyEnv): string {
    if req.body.Some? then ConversationIdOf(req.body.value, env.freshId) else env.freshId
  }

  /** The older `handleAIChat`: only POST is served, a body that does not
      parse is a 500, a missing or blank message is a 400, and any other
      message, however long, goes to the model. */
  function HandleChat(req: Request, env: LegacyEnv, store: Store): (o: Outcome)
    ensures req.httpMethod != "POST" ==> o == Outcome(MethodNotAllowed, store)
    ensures req.httpMethod == "POST" && req.body.None? ==> o == Outcome(InternalError, store)
    ensures o.reply == MessageRequired <==>
      req.httpMethod == "POST" && req.body.Some? && MissingMessage(req.body.value.message)
    ensures o.reply == MessageRequired ==> o.store == store
    ensures !o.reply.Answered? ==> o.store == store
    ensures AgreeExcept(o.store, store, {ConversationKey(RequestConversationId(req, env))})
  {
    if req.httpMethod != "POST" then Outcome(MethodNotAllowed, store)
    else match req.body
      case None => Outcome(InternalError, store)
      case Some(b) =>
        if MissingMessage(b.message) then Outcome(MessageRequired, store)
        else Converse(b.message.value, b, env, store)
  }

  /** A present message reaches the turn proper whatever its length. */
  lemma HandleReachesConverse(req: Request, env: LegacyEnv, store: Store)
    requires req.httpMethod == "POST" && req.body.Some? && !MissingMessage(req.body.value.message)
    ensures HandleChat(req, env, store) == Converse(req.body.value.message.value, req.body.value, env, store)
  {
  }

  /** The turn for a present message whose history loads: the model sees
      the history (primed with this handler's prompt when empty) and the
      message, and an answer is saved with nothing dropped. There is no
      length cap: a message of any length is treated alike. */
  lemma AnsweredTurn(req: Request, env: LegacyEnv, store: Store, history: Conversation)
    requires req.httpMethod == "POST" && req.body.Some? && !MissingMessage(req.body.value.message)
    requires LoadHistory(store, req.body.value.conversationId) == Some(history)
    ensures
      var b := req.body.value;
      var asked := Asked(history, ContextFor(b.context, env), b.message.value);
      var answer := RunModel(env.infer(asked));
      var o := HandleChat(req, env, store);
      && (answer.None? <==> o.reply == InternalError)
      && (answer.Some? ==>
            && o.reply == Answered(ConversationIdOf(b, env.freshId), answer.value)
            && LoadConversation(o.store, ConversationIdOf(b, env.freshId))
                 == Some(asked + [ChatMessage(Assistant, answer.value)]))
  {
    HandleReachesConverse(req, env, store);
  }

  /** A provider reply without a `response` field is answered with the
      apology, which is saved as the last message of the conversation. */
  lemma NoResponseFieldGetsApology(req: Request, env: LegacyEnv, store: Store, history: Conversation)
    requires req.httpMethod == "POST" && req.body.Some? && !MissingMessage(req.body.value.message)
    requires LoadHistory(store, req.body.value.conversationId) == Some(history)
    requires forall c :: env.infer(c) == NoResponseField
    ensures
      var o := HandleChat(req, env, store);
      var cid := ConversationIdOf(req.body.value, env.freshId);
      && o.reply == Answered(cid, Apology)
      && LoadConversation(o.store, cid).Some?
      && |LoadConversation(o.store, cid).value| > 0
      && LoadConversation(o.store, cid).value[|LoadConversation(o.store, cid).value| - 1]
           == ChatMessage(Assistant, Apology)
  {
  }

  /** Each answered turn lengthens the stored conversation by two messages,
      by three when it starts one (the system prompt comes first). */
  lemma AnsweredTurnGrows(req: Request, env: LegacyEnv, store: Store, history: Conversation)
    requires req.httpMethod == "POST" && req.body.Some? && !MissingMessage(req.body.value.message)
    requires LoadHistory(store, req.body.value.conversationId) == Some(history)
    ensures var o := HandleChat(req, env, store);
      o.reply.Answered? ==>
        && LoadConversation(o.store, o.reply.conversationId).Some?
        && |LoadConversation(o.store, o.reply.conversationId).value| == Grown(|history|, 1)
  {
    AnsweredTurn(req, env, store, history);
  }

  /** The stored length after `turns` answered turns starting from `length` messages. */
  function Grown(length: nat, turns: nat): nat
  {
    if turns == 0 then length
    else if length == 0 then 1 + 2 * turns
    else length + 2 * turns
  }

  /** A caller-supplied context goes into the prompt as it is; the bucket is
      not listed and, with no cache in this handler, nothing but the
      conversation is ever written. */
  lemma ContextOverride(req: Request, env: LegacyEnv, store: Store)
    requires req.httpMethod == "POST" && req.body.Some? && !MissingMessage(req.body.value.message)
    requires LoadHistory(store, req.body.value.conversationId) == Some([])
    requires Truthy(req.body.value.context)
    ensures var o := HandleChat(req, env, store);
      o.reply.Answered? ==>
        LoadConversation(o.store, o.reply.conversationId).value[0]
          == ChatMessage(System, SystemPrompt(req.body.value.context.value))
  {
    AnsweredTurn(req, env, store, []);
  }

  /** The request for one message of a dialogue held under `id`. */
  function TurnRequest(id: string, message: string): Request {
    Request("POST", map[], Some(ChatRequest(Some(message), Some(id), None)))
  }

  /** The namespace after sending `messages` one after another, all on the conversation `id`. */
  function Dialogue(id: string, messages: seq<string>, env: LegacyEnv, store: Store): Store
    decreases |messages|
  {
    if |messages| == 0 then store
    else Dialogue(id, messages[1..], env, HandleChat(TurnRequest(id, messages[0]), env, store).store)
  }

  /** One message of a dialogue, with a provider that always answers. */
  lemma DialogueStep(id: string, message: string, env: LegacyEnv, store: Store, history: Conversation)
    requires id != "" && !IsBlank(message)
    requires forall c :: env.infer(c) != Threw
    requires LoadConversation(store, id) == Some(history)
    ensures var next := HandleChat(TurnRequest(id, message), env, store).store;
      LoadConversation(next, id).Some? && |LoadConversation(next, id).value| == Grown(|history|, 1)
  {
    var req := TurnRequest(id, message);
    MissingMessageIffBlank(message);
    AnsweredTurnGrows(req, env, store, history);
    AnsweredTurn(req, env, store, history);
    var asked := Asked(history, ContextFor(None, env), message);
    assert env.infer(asked) != Threw;
  }

  /** With a provider that always answers, a dialogue of k non-blank
      messages on a conversation of n stored messages leaves n + 2k of
      them (2k + 1 from scratch): nothing is ever dropped. */
  lemma {:induction false} DialogueGrows(id: string, messages: seq<string>, env: LegacyEnv, store: Store, history: Conversation)
    requires id != ""
    requires forall i :: 0 <= i < |messages| ==> !IsBlank(messages[i])
    requires forall c :: env.infer(c) != Threw
    requires LoadConversation(store, id) == Some(history)
    ensures var after := LoadConversation(Dialogue(id, messages, env, store), id);
      after.Some? && |after.value| == Grown(|history|, |messages|)
    decreases |messages|
  {
    if |messages| > 0 {
      DialogueStep(id, messages[0], env, store, history);
      var next := HandleChat(TurnRequest(id, messages[0]), env, store).store;
      var grown := LoadConversation(next, id).value;
      DialogueGrows(id, messages[1..], env, next, grown);
      assert Dialogue(id, messages, env, store) == Dialogue(id, messages[1..], env, next);
    }
  }
}

=== FILE: ratelimit.dfy ===
/** The free tier's per-caller daily request limit: a counter per caller
    address and calendar day, kept in the key-value namespace. */
module RateLimit {
  import opened Js
  import opened Kv

  /** `FREE_TIER_LIMITS.dailyRequests`. */
  const DailyRequests := 100

  /** The counter key for one caller on one UTC day (`YYYY-MM-DD`). The date
      is an input: the model has no clock. */
  function RateKey(ip: string, today: string): string {
    "ratelimit:" + ip + ":" + today
  }

  datatype RateCheck = RateCheck(allowed: bool, remaining: Num)

  /** A decision together with the namespace after it. */
  datatype Checked = Checked(check: RateCheck, store: Store)

  /** `checkRateLimit`: a caller whose counter reached the cap is refused and
      nothing is written; any other caller is let through, only the
      counter is written, and the reply says how many requests remain. A
      counter that does not read as a number (`NaN`) never reaches the cap. */
  function CheckRateLimit(store: Store, ip: string, today: string): (r: Checked)
    ensures var count := ReadCount(store, RateKey(ip, today));
      !r.check.allowed <==> AtLeast(count, DailyRequests)
    ensures !r.check.allowed ==> r.check.remaining == Finite(0) && r.store == store
    ensures var count := ReadCount(store, RateKey(ip, today));
      r.check.allowed ==> r.check.remaining == if count.Finite? then Finite(DailyRequests - (count.value + 1)) else NaN
    ensures AgreeExcept(r.store, store, {RateKey(ip, today)})
  {
    var key := RateKey(ip, today);
    var count := ReadCount(store, key);
    if AtLeast(count, DailyRequests) then
      Checked(RateCheck(false, Finite(0)), store)
    else
      var written := store[key := NumToString(Succ(count))];
      AgreeExceptWrite(store, key, NumToString(Succ(count)));
      match count
      case Finite(c) => Checked(RateCheck(true, Finite(DailyRequests - c - 1)), written)
      case NaN => Checked(RateCheck(true, NaN), written)
  }

  /** A request that is let through leaves a counter that reads one higher
      (`NaN` stays `NaN`), and from a non-negative count it reports between
      0 and `DailyRequests - 1` requests remaining. */
  lemma CheckCounts(store: Store, ip: string, today: string)
    ensures var count := ReadCount(store, RateKey(ip, today));
      var r := CheckRateLimit(store, ip, today);
      r.check.allowed ==>
        && ReadCount(r.store, RateKey(ip, today)) == Succ(count)
        && (count.Finite? && count.value >= 0 ==> 0 <= r.check.remaining.value < DailyRequests)
  {
    match ReadCount(store, RateKey(ip, today))
    case Finite(c) =>
      if c < DailyRequests {
        CountedWrite(store, ip, today, c);
      }
    case NaN =>
      UnreadableCounterNeverCaps(store, ip, today);
  }

  /** Below the cap the counter is written back one higher. */
  lemma CountedWrite(store: Store, ip: string, today: string, c: int)
    requires ReadCount(store, RateKey(ip, today)) == Finite(c) && c < DailyRequests
    ensures ReadCount(CheckRateLimit(store, ip, today).store, RateKey(ip, today)) == Finite(c + 1)
  {
    ReadCountOfWritten(store, RateKey(ip, today), c + 1);
  }

  /** One request from `ip` on `today`, as a change of the namespace. */
  function Step(ip: string, today: string): Store -> Store {
    store => CheckRateLimit(store, ip, today).store
  }

  /** The namespace after `n` applications of `step`. */
  function Iterate(step: Store -> Store, store: Store, n: nat): Store {
    if n == 0 then store else step(Iterate(step, store, n - 1))
  }

  /** A step that adds one to a counter below the cap, applied `n` times
      (`n` at most the cap) to a namespace without the counter, leaves the
      counter reading `n`. */
  lemma {:induction false} CountAfter(step: Store -> Store, store: Store, key: string, n: nat)
    requires key !in store
    requires n <= DailyRequests
    requires forall s: Store, c: int :: 0 <= c < DailyRequests && ReadCount(s, key) == Finite(c) ==>
      ReadCount(step(s), key) == Finite(c + 1)
    ensures ReadCount(Iterate(step, store, n), key) == Finite(n)
  {
    if n == 0 {
      assert Get(store, key) == None;
    } else {
      CountAfter(step, store, key, n - 1);
    }
  }

  /** Below the cap, a request from the same caller on the same day adds one
      to the counter. */
  lemma StepCounts(ip: string, today: string)
    ensures forall s: Store, c: int :: 0 <= c < DailyRequests && ReadCount(s, RateKey(ip, today)) == Finite(c) ==>
      ReadCount(Step(ip, today)(s), RateKey(ip, today)) == Finite(c + 1)
  {
    forall s: Store, c: int | 0 <= c < DailyRequests && ReadCount(s, RateKey(ip, today)) == Finite(c)
      ensures ReadCount(Step(ip, today)(s), RateKey(ip, today)) == Finite(c + 1)
    {
      CheckCounts(s, ip, today);
    }
  }

  /** On a fresh day the first `DailyRequests` requests are all let through:
      the request that follows `n` earlier ones is allowed with
      `DailyRequests - n - 1` remaining. */
  lemma DailyQuota(store: Store, ip: string, today: string, n: nat)
    requires RateKey(ip, today) !in store
    requires n < DailyRequests
    ensures CheckRateLimit(Iterate(Step(ip, today), store, n), ip, today).check
      == RateCheck(true, Finite(DailyRequests - n - 1))
  {
    StepCounts(ip, today);
    CountAfter(Step(ip, today), store, RateKey(ip, today), n);
  }

  /** The request after the `DailyRequests`-th of a day is refused with
      nothing remaining, and refusing it changes nothing. */
  lemma QuotaExhausted(store: Store, ip: string, today: string)
    requires RateKey(ip, today) !in store
    ensures var s := Iterate(Step(ip, today), store, DailyRequests);
      && CheckRateLimit(s, ip, today).check == RateCheck(false, Finite(0))
      && CheckRateLimit(s, ip, today).store == s
  {
    StepCounts(ip, today);
    CountAfter(Step(ip, today), store, RateKey(ip, today), DailyRequests);
  }

  /** Once a counter holds text that is not a number, every request is let
      through and the counter stays unreadable: the cap is no longer enforced. */
  lemma UnreadableCounterNeverCaps(store: Store, ip: string, today: string)
    requires ReadCount(store, RateKey(ip, today)) == NaN
    ensures CheckRateLimit(store, ip, today).check == RateCheck(true, NaN)
    ensures ReadCount(CheckRateLimit(store, ip, today).store, RateKey(ip, today)) == NaN
  {
    var key := RateKey(ip, today);
    var s := CheckRateLimit(store, ip, today).store;
    assert s[key] == NumToString(Succ(NaN)) == "NaN";
    assert Get(s, key) == Some("NaN");
    ReadCountOfNaN(store, key);
  }
}

=== FILE: router.dfy ===
/** The worker's entry point (`index.ts`): the domain check, the CORS
    preflight, the three chat endpoints, the catch-all for other `/api/`
    paths and the static site, in that order. */
module Router {
  import opened Strings
  import opened Js
  import StaticFiles

  const Apex := "mhcomputer.org"
  const WwwHost := "www.mhcomputer.org"

  const ChatPath := "/api/ai/chat"
  const HealthPath := "/api/ai/health"
  const AnalyticsPath := "/api/ai/analytics"
  const ApiPrefix := "/api/"

  /** The parts of the request URL the worker reads. */
  datatype Url = Url(hostname: string, pathname: string, search: string)

  /** An HTTP(S) URL's path always starts with a slash. */
  predicate WellFormed(url: Url) {
    StartsWith(url.pathname, "/")
  }

  datatype DomainReply =
    | Redirect(location: string)
    | DomainNotSupported

  /** `handleDomainRedirect`: the `www.` host is sent to the bare domain with
      the same path and query; a host that does not end with the domain name
      is refused; any other host goes on. */
  function DomainRedirect(url: Url): (d: Option<DomainReply>)
    ensures d == Some(Redirect("https://mhcomputer.org" + url.pathname + url.search)) <==> url.hostname == WwwHost
    ensures d == Some(DomainNotSupported) <==> !EndsWith(url.hostname, Apex)
    ensures d == None <==> url.hostname != WwwHost && EndsWith(url.hostname, Apex)
  {
    if url.hostname == WwwHost then
      assert EndsWith(WwwHost, Apex) by {
        assert WwwHost[|WwwHost| - |Apex|..] == Apex;
      }
      Some(Redirect("https://mhcomputer.org" + url.pathname + url.search))
    else if !EndsWith(url.hostname, Apex) then Some(DomainNotSupported)
    else None
  }

  /** Where `fetch` sends a request. */
  datatype Route =
    | Domain(reply: DomainReply)
    | Preflight
    | AiChat
    | AiHealth
    | AiAnalytics
    | InvalidEndpoint
    | Static

  /** The status of the replies the router makes itself; the others come
      from the handler the request is passed to. */
  function RouterStatus(r: Route): Option<int> {
    match r
    case Domain(Redirect(_)) => Some(301)
    case Domain(DomainNotSupported) => Some(404)
    case Preflight => Some(200)
    case InvalidEndpoint => Some(404)
    case _ => None
  }

  /** `fetch`: the first test that applies decides. */
  function Dispatch(httpMethod: string, url: Url): (r: Route)
    ensures DomainRedirect(url).Some? <==> r.Domain?
    ensures r.Domain? ==> r.reply == DomainRedirect(url).value
  {
    match DomainRedirect(url)
    case Some(reply) => Domain(reply)
    case None =>
      if httpMethod == "OPTIONS" then Preflight
      else if StartsWith(url.pathname, ApiPrefix) then
        if url.pathname == ChatPath then AiChat
        else if url.pathname == HealthPath then AiHealth
        else if url.pathname == AnalyticsPath then AiAnalytics
        else InvalidEndpoint
      else Static
  }

  /** The domain check comes before everything else, the preflight included. */
  lemma DomainCheckFirst(httpMethod: string, url: Url)
    requires !EndsWith(url.hostname, Apex)
    ensures Dispatch(httpMethod, url) == Domain(DomainNotSupported)
    ensures RouterStatus(Dispatch(httpMethod, url)) == Some(404)
  {
  }

  /** The `www.` host is redirected with its path and query kept, whatever the method. */
  lemma WwwRedirects(httpMethod: string, pathname: string, search: string)
    ensures Dispatch(httpMethod, Url(WwwHost, pathname, search))
      == Domain(Redirect("https://" + Apex + pathname + search))
  {
    assert "https://mhcomputer.org" == "https://" + Apex;
  }

  /** The redirect does not loop: its target names the bare domain, which
      the domain check lets through, and there the request is routed just
      as on any other accepted host. */
  lemma RedirectTargetIsServed(httpMethod: string, url: Url, host: string)
    requires url.hostname == WwwHost
    requires host != WwwHost && EndsWith(host, Apex)
    ensures Dispatch(httpMethod, url) == Domain(Redirect("https://" + Apex + url.pathname + url.search))
    ensures DomainRedirect(Url(Apex, url.pathname, url.search)) == None
    ensures Dispatch(httpMethod, Url(Apex, url.pathname, url.search))
      == Dispatch(httpMethod, Url(host, url.pathname, url.search))
  {
  }

  /** On an accepted host an OPTIONS request gets the preflight on any path,
      the chat endpoint's included. */
  lemma PreflightOnAnyPath(url: Url)
    requires url.hostname != WwwHost && EndsWith(url.hostname, Apex)
    ensures Dispatch("OPTIONS", url) == Preflight
  {
  }

  /** The host test is a plain suffix test: a host that merely ends with
      the domain name, such as `xmhcomputer.org`, is accepted. */
  lemma SuffixTestAcceptsLookalike(prefix: string, httpMethod: string, pathname: string, search: string)
    requires prefix != "www."
    ensures DomainRedirect(Url(prefix + Apex, pathname, search)) == None
    ensures DomainRedirect(Url("x" + Apex, pathname, search)) == None
  {
    EndsWithAppend(prefix, Apex);
    EndsWithAppend("x", Apex);
    assert prefix + Apex != WwwHost by {
      if |prefix| == 4 {
        assert (prefix + Apex)[..4] == prefix;
        assert WwwHost[..4] == "www.";
      }
    }
    var x := "x" + Apex;
    assert x[0] == 'x' && WwwHost[0] == 'w';
  }

  /** The three chat endpoints lie under `/api/`. */
  lemma EndpointsUnderApi()
    ensures StartsWith(ChatPath, ApiPrefix)
    ensures StartsWith(HealthPath, ApiPrefix)
    ensures StartsWith(AnalyticsPath, ApiPrefix)
  {
    StartsWithAppend(ApiPrefix, "ai/chat");
    StartsWithAppend(ApiPrefix, "ai/health");
    StartsWithAppend(ApiPrefix, "ai/analytics");
    assert ChatPath == ApiPrefix + "ai/chat";
    assert HealthPath == ApiPrefix + "ai/health";
    assert AnalyticsPath == ApiPrefix + "ai/analytics";
  }

  /** Past the domain check and the preflight, each chat endpoint reaches its handler. */
  lemma ApiRoutes(httpMethod: string, url: Url)
    requires DomainRedirect(url).None? && httpMethod != "OPTIONS"
    ensures url.pathname == ChatPath ==> Dispatch(httpMethod, url) == AiChat
    ensures url.pathname == HealthPath ==> Dispatch(httpMethod, url) == AiHealth
    ensures url.pathname == AnalyticsPath ==> Dispatch(httpMethod, url) == AiAnalytics
  {
    EndpointsUnderApi();
  }

  /** Past the domain check and the preflight, the router answers 404 exactly
      for the other `/api/` paths and hands every path outside `/api/` to
      the static site. */
  lemma OtherRoutes(httpMethod: string, url: Url)
    requires DomainRedirect(url).None? && httpMethod != "OPTIONS"
    ensures Dispatch(httpMethod, url) == InvalidEndpoint <==>
      StartsWith(url.pathname, ApiPrefix) && url.pathname !in {ChatPath, HealthPath, AnalyticsPath}
    ensures Dispatch(httpMethod, url) == Static <==> !StartsWith(url.pathname, ApiPrefix)
  {
    EndpointsUnderApi();
  }

  /** Every other `/api/` path is a 404, whatever the method and body. */
  lemma UnknownApiPathIs404(httpMethod: string, url: Url)
    requires DomainRedirect(url).None? && httpMethod != "OPTIONS"
    requires StartsWith(url.pathname, ApiPrefix)
    requires url.pathname != ChatPath && url.pathname != HealthPath && url.pathname != AnalyticsPath
    ensures RouterStatus(Dispatch(httpMethod, url)) == Some(404)
  {
  }

  /** A path whose key (the path without its first slash) starts with
      `api/` is itself under `/api/`. */
  lemma ApiKeyMeansApiPath(pathname: string)
    requires StartsWith(pathname, "/")
    ensures StaticFiles.IsApiKey(StaticFiles.RawKey(pathname)) ==> StartsWith(pathname, ApiPrefix)
  {
    var k := StaticFiles.RawKey(pathname);
    if |pathname| <= 1 {
      NotStartsWithAt(k, "api/", 1);
    } else if StartsWith(k, "api/") {
      assert pathname[..5] == [pathname[0]] + k[..4];
    }
  }

  /** With the path seen decoded by both the router and the static site, a
      request that reaches the site never has an `api/` key, so the `api/`
      branch of the key rewriting is not taken from here: every key the
      site is asked for has no doubled slash and has a dot. */
  lemma StaticKeysArePlain(httpMethod: string, url: Url)
    requires WellFormed(url)
    requires Dispatch(httpMethod, url) == Static
    ensures !StaticFiles.IsApiKey(StaticFiles.RawKey(url.pathname))
    ensures StaticFiles.NoDoubleSlash(StaticFiles.NormalizeKey(url.pathname))
    ensures '.' in StaticFiles.NormalizeKey(url.pathname)
  {
    ApiKeyMeansApiPath(url.pathname);

  }
}

=== FILE: session.dfy ===
/** Conversation storage: one key per conversation id holding the encoded
    message list. The chat handler keeps only the most recent messages; the
    older handler keeps them all. Expiry (one hour and one day respectively)
    is not modelled. */
module Session {
  import opened Strings
  import opened Js
  import opened Kv
  import opened Chat

  /** `FREE_TIER_LIMITS.maxConversationLength`. */
  const MaxConversationLength := 10

  function ConversationKey(id: string): string {
    "conversations:" + id
  }

  /** `loadConversation`: an absent or empty value is a new conversation;
      text that does not decode is a failure (`JSON.parse` throws and the
      handler answers 500). */
  function LoadConversation(store: Store, id: string): (r: Option<Conversation>)
    ensures !Truthy(Get(store, ConversationKey(id))) ==> r == Some([])
    ensures Truthy(Get(store, ConversationKey(id))) ==> r == Decode(store[ConversationKey(id)])
  {
    var data := Get(store, ConversationKey(id));
    if !Truthy(data) then Some([]) else Decode(data.value)
  }

  /** `conversationId || conv_<time>_<random>`: the caller's id, or the
      freshly drawn one when the caller sent none or an empty one. */
  function ConversationIdOf(body: ChatRequest, freshId: string): string
  {
    if Truthy(body.conversationId) then body.conversationId.value else freshId
  }

  /** The history a turn starts from: read only when the caller supplied a
      conversation id, empty otherwise. */
  function LoadHistory(store: Store, conversationId: Option<string>): Option<Conversation>
  {
    if Truthy(conversationId) then LoadConversation(store, conversationId.value) else Some([])
  }

  /** Writing `messages` under the conversation key reads back exactly, and
      touches no other key. */
  lemma WriteThenLoad(store: Store, id: string, messages: Conversation)
    ensures LoadConversation(store[ConversationKey(id) := Encode(messages)], id) == Some(messages)
    ensures AgreeExcept(store[ConversationKey(id) := Encode(messages)], store, {ConversationKey(id)})
  {
    DecodeEncode(messages);
    if |messages| == 0 {
      assert Encode(messages) == "";
    }
  }

  /** The chat handler's `storeConversation`: only the last
      `MaxConversationLength` messages are kept. Loading right after saving
      gives back that suffix of what was saved. */
  function StoreConversation(store: Store, id: string, messages: Conversation): (s: Store)
    ensures LoadConversation(s, id) == Some(LastN(messages, MaxConversationLength))
    ensures |LastN(messages, MaxConversationLength)| <= MaxConversationLength
    ensures ConversationKey(id) in s && AgreeExcept(s, store, {ConversationKey(id)})
  {
    WriteThenLoad(store, id, LastN(messages, MaxConversationLength));
    store[ConversationKey(id) := Encode(LastN(messages, MaxConversationLength))]
  }

  /** The older handler's `storeConversation`: the whole history is kept, so
      loading right after saving gives back everything that was saved. */
  function StoreFullConversation(store: Store, id: string, messages: Conversation): (s: Store)
    ensures LoadConversation(s, id) == Some(messages)
    ensures ConversationKey(id) in s && AgreeExcept(s, store, {ConversationKey(id)})
  {
    WriteThenLoad(store, id, messages);
    store[ConversationKey(id) := Encode(messages)]
  }

  /** Every conversation that can be loaded holds at most `MaxConversationLength` messages. */
  ghost predicate Bounded(store: Store) {
    forall id :: LoadConversation(store, id).Some? ==> |LoadConversation(store, id).value| <= MaxConversationLength
  }

  /** Saving keeps the bound: the saved conversation is cut to the limit and
      every other conversation is untouched. */
  lemma StoreConversationKeepsBound(store: Store, id: string, messages: Conversation)
    requires Bounded(store)
    ensures Bounded(StoreConversation(store, id, messages))
  {
    var s := StoreConversation(store, id, messages);
    forall other | LoadConversation(s, other).Some?
      ensures |LoadConversation(s, other).value| <= MaxConversationLength
    {
      if other != id {
        assert ConversationKey(other) != ConversationKey(id) by {
          assert ConversationKey(other)[14..] == other && ConversationKey(id)[14..] == id;
        }
        assert Get(s, ConversationKey(other)) == Get(store, ConversationKey(other));
        assert LoadConversation(s, other) == LoadConversation(store, other);
      }
    }
  }

  /** Writes to keys that are not conversation keys, plus at most one
      conversation left within the bound, keep the whole namespace bounded. */
  lemma BoundedAfterWrites(before: Store, after: Store, id: string, others: set<string>)
    requires Bounded(before)
    requires AgreeExcept(after, before, {ConversationKey(id)} + others)
    requires forall other :: ConversationKey(other) !in others
    requires LoadConversation(after, id).Some? ==> |LoadConversation(after, id).value| <= MaxConversationLength
    ensures Bounded(after)
  {
    forall other | LoadConversation(after, other).Some?
      ensures |LoadConversation(after, other).value| <= MaxConversationLength
    {
      if other != id {
        assert ConversationKey(other) != ConversationKey(id) by {
          assert ConversationKey(other)[14..] == other && ConversationKey(id)[14..] == id;
        }
        assert Get(after, ConversationKey(other)) == Get(before, ConversationKey(other));
        assert LoadConversation(after, other) == LoadConversation(before, other);
      }
    }
  }

  /** A conversation of `MaxConversationLength` messages that receives one
      more turn keeps the most recent ten: the two oldest are dropped. */
  lemma FullConversationDropsOldest(store: Store, id: string, history: Conversation, user: ChatMessage, assistant: ChatMessage)
    requires |history| == MaxConversationLength
    ensures LoadConversation(StoreConversation(store, id, history + [user, assistant]), id)
      == Some(history[2..] + [user, assistant])
  {
    assert (history + [user, assistant])[2..] == history[2..] + [user, assistant];
  }
}

=== FILE: staticfiles.dfy ===
/** Serving the site's files from the bucket (`html_handler.ts`): the object
    key a URL path maps to, the content type and cache policy of a key, and
    the 404 / 304 / 200 decision.

    Paths arrive already percent-decoded; the bucket is a map from key to
    the object's HTTP entity tag (`""` when it has none). */
module StaticFiles {
  import opened Strings
  import opened Js

  const DefaultMime := "application/octet-stream"

  /** The content type of each known extension, dot included. */
  const MimeTypes: map<string, string> := map[
    ".html" := "text/html; charset=utf-8",
    ".css" := "text/css",
    ".js" := "application/javascript",
    ".json" := "application/json",
    ".xml" := "application/xml",
    ".txt" := "text/plain",
    ".png" := "image/png",
    ".jpg" := "image/jpeg",
    ".jpeg" := "image/jpeg",
    ".gif" := "image/gif",
    ".svg" := "image/svg+xml",
    ".webp" := "image/webp",
    ".ico" := "image/x-icon",
    ".woff" := "font/woff",
    ".woff2" := "font/woff2",
    ".ttf" := "font/ttf",
    ".otf" := "font/otf",
    ".eot" := "application/vnd.ms-fontobject",
    ".pdf" := "application/pdf",
    ".zip" := "application/zip",
    ".mp4" := "video/mp4",
    ".webm" := "video/webm",
    ".mp3" := "audio/mpeg",
    ".wav" := "audio/wav"]

  // ---------------------------------------------------------------- extensions

  /** `r` is what `s.split('.').pop()` gives: a dot-free suffix of `s` that is
      either all of `s` or preceded by a dot. */
  predicate IsLastSegment(s: string, r: string) {
    && EndsWith(s, r)
    && '.' !in r
    && (|r| < |s| ==> s[|s| - |r| - 1] == '.')
  }

  /** The text after the last '.', or all of `s` when it has none. */
  function LastSegment(s: string): (r: string)
    ensures IsLastSegment(s, r)
    decreases |s|
  {
    if |s| == 0 || s[|s| - 1] == '.' then ""
    else
      var prefix := s[..|s| - 1];
      var r := LastSegment(prefix) + [s[|s| - 1]];
      assert s[|s| - |r|..] == prefix[|prefix| - (|r| - 1)..] + [s[|s| - 1]];
      r
  }

  /** Only one string is the last segment of `s`. */
  lemma LastSegmentUnique(s: string, r: string)
    requires IsLastSegment(s, r)
    ensures LastSegment(s) == r
  {
    var q := LastSegment(s);
    // The dot before the shorter one would lie inside the longer one.
    assert '.' !in s[|s| - |r|..] && '.' !in s[|s| - |q|..];
    assert |q| == |r|;
  }

  /** The segment after the final dot of `base.ext` is `ext`. */
  lemma LastSegmentAfterDot(base: string, ext: string)
    requires '.' !in ext
    ensures LastSegment(base + "." + ext) == ext
  {
    var s := base + "." + ext;
    assert s[|s| - |ext|..] == ext;
    LastSegmentUnique(s, ext);
  }

  /** Folding commutes with taking the last segment, because only '.' folds to '.'. */
  lemma LastSegmentFolds(s: string)
    ensures FoldString(LastSegment(s)) == LastSegment(FoldString(s))
  {
    var r := LastSegment(s);
    var f := FoldString(s);
    var fr := FoldString(r);
    assert f[|f| - |fr|..] == fr;
    assert '.' !in fr by {
      forall i | 0 <= i < |fr| ensures fr[i] != '.' {
        assert r[i] != '.';
      }
    }
    LastSegmentUnique(f, fr);
  }

  /** The content type the table gives an extension written without its dot. */
  function ContentTypeOf(ext: string): string {
    if "." + ext in MimeTypes then MimeTypes["." + ext] else DefaultMime
  }

  /** `getMimeType`: the lower-cased last segment, with a dot in front, looked up in the table. */
  function MimeType(filename: string): (m: string)
    ensures m == DefaultMime || m in MimeTypes.Values
  {
    ContentTypeOf(FoldString(LastSegment(filename)))
  }

  /** A name with an extension gets the type of that extension in any letter case. */
  lemma MimeTypeOfExtension(base: string, ext: string)
    requires '.' !in ext
    ensures MimeType(base + "." + ext) == ContentTypeOf(FoldString(ext))
  {
    LastSegmentAfterDot(base, ext);
  }

  /** The content type depends on the name only up to letter case. */
  lemma MimeTypeIgnoresCase(a: string, b: string)
    requires FoldString(a) == FoldString(b)
    ensures MimeType(a) == MimeType(b)
  {
    LastSegmentFolds(a);
    LastSegmentFolds(b);
  }

  /** A name without any dot is looked up as if it were an extension. */
  lemma DotlessNameIsItsOwnExtension(name: string)
    requires '.' !in name
    ensures MimeType(name) == ContentTypeOf(FoldString(name))
  {
    LastSegmentUnique(name, name);
  }

  /** So `getMimeType("css")` is `text/css`, not the default (the handler
      itself never passes it such a name: see `DotlessPathIsPage`). */
  lemma DotlessExample()
    ensures MimeType("css") == "text/css"
  {
    var name := "css";
    DotlessNameIsItsOwnExtension(name);
    assert FoldString(name) == name;
    CssContentType();
  }

  lemma CssContentType()
    ensures ContentTypeOf("css") == "text/css"
  {
    assert "." + "css" == ".css";
  }

  // ------------------------------------------------------------- cache policy

  /** The extensions `getCacheControl` treats as immutable assets. */
  const AssetExtensions: set<string> :=
    {"js", "css", "jpg", "jpeg", "png", "gif", "ico", "woff", "woff2", "ttf", "eot", "svg", "webp"}

  const Immutable := "public, max-age=31536000, immutable"
  const Revalidate := "public, max-age=3600, must-revalidate"
  const NoCache := "no-cache"

  /** The asset pattern of `getCacheControl` matches: the key ends, in any
      letter case, with a dot and one of the asset extensions. */
  predicate IsAsset(key: string) {
    exists e :: e in AssetExtensions && EndsWithFolded(key, "." + e)
  }

  /** `getCacheControl`: assets are cached for a year, pages for an hour
      (the `.html` test is case-sensitive), anything else not at all. */
  function CacheControl(key: string): (c: string)
    ensures c == Immutable <==> IsAsset(key)
    ensures c == Revalidate <==> !IsAsset(key) && EndsWith(key, ".html")
    ensures c == NoCache <==> !IsAsset(key) && !EndsWith(key, ".html")
  {
    if IsAsset(key) then Immutable
    else if EndsWith(key, ".html") then Revalidate
    else NoCache
  }

  lemma AssetExtensionsDotFree(e: string)
    requires e in AssetExtensions
    ensures '.' !in e
  {
  }

  /** A key the asset pattern matches ends with a dot and an extension
      that lower-cases to an asset extension. */
  lemma AssetHasExtension(key: string, e: string)
    requires e in AssetExtensions && EndsWithFolded(key, "." + e)
    ensures |LastSegment(key)| < |key| && FoldString(LastSegment(key)) == e
  {
    AssetExtensionsDotFree(e);
    var f := FoldString(key);
    var n := |key|;
    var k := |e|;
    assert f[n - k - 1] == '.';
    assert key[n - k - 1] == '.';
    var tail := key[n - k..];
    assert FoldString(tail) == e by {
      assert f[n - k..] == e;
      forall i | 0 <= i < k ensures FoldString(tail)[i] == e[i] {
        assert f[n - k + i] == e[i];
      }
    }
    assert '.' !in tail by {
      forall i | 0 <= i < k ensures tail[i] != '.' {
        assert f[n - k + i] == e[i];
      }
    }
    assert key[n - |tail|..] == tail;
    LastSegmentUnique(key, tail);
  }

  /** A key whose lower-cased extension is an asset extension ends, in any
      letter case, with the dot and that extension. */
  lemma ExtensionMakesAsset(key: string)
    requires |LastSegment(key)| < |key|
    ensures EndsWithFolded(key, "." + FoldString(LastSegment(key)))
  {
    var f := FoldString(key);
    var r := LastSegment(key);
    var e := FoldString(r);
    var n := |key|;
    forall i | 0 <= i < |r| + 1 ensures f[n - |r| - 1 + i] == ("." + e)[i] {
      if i > 0 {
        assert key[n - |r| - 1 + i] == r[i - 1];
      }
    }
    assert f[n - |r| - 1..] == "." + e;
  }

  /** The asset pattern matches exactly when the key has a dot and its
      extension, as the content-type lookup reads it, is an asset extension
      once lower-cased. */
  lemma AssetIffExtension(key: string)
    ensures IsAsset(key) <==>
      |LastSegment(key)| < |key| && FoldString(LastSegment(key)) in AssetExtensions
  {
    if IsAsset(key) {
      var e :| e in AssetExtensions && EndsWithFolded(key, "." + e);
      AssetHasExtension(key, e);
    }
    if |LastSegment(key)| < |key| && FoldString(LastSegment(key)) in AssetExtensions {
      ExtensionMakesAsset(key);
    }
  }

  /** The scripts, style sheets and bitmaps among the assets have table entries. */
  lemma CodeAndImageTypesKnown(e: string)
    requires e == "js" || e == "css" || e == "jpg" || e == "jpeg" || e == "png" || e == "gif" || e == "ico"
    ensures "." + e in MimeTypes
  {
    if e == "js" {
      assert "." + e == ".js";
    } else if e == "css" {
      assert "." + e == ".css";
    } else if e == "jpg" {
      assert "." + e == ".jpg";
    } else if e == "jpeg" {
      assert "." + e == ".jpeg";
    } else if e == "png" {
      assert "." + e == ".png";
    } else if e == "gif" {
      assert "." + e == ".gif";
    } else if e == "ico" {
      assert "." + e == ".ico";
    }
  }

  /** So do the fonts and vector images. */
  lemma FontAndVectorTypesKnown(e: string)
    requires e == "woff" || e == "woff2" || e == "ttf" || e == "eot" || e == "svg" || e == "webp"
    ensures "." + e in MimeTypes
  {
    if e == "woff" {
      assert "." + e == ".woff";
    } else if e == "woff2" {
      assert "." + e == ".woff2";
    } else if e == "ttf" {
      assert "." + e == ".ttf";
    } else if e == "eot" {
      assert "." + e == ".eot";
    } else if e == "svg" {
      assert "." + e == ".svg";
    } else if e == "webp" {
      assert "." + e == ".webp";
    }
  }

  /** Every asset extension has an entry of its own in the content-type table. */
  lemma AssetExtensionsKnown(e: string)
    requires e in AssetExtensions
    ensures "." + e in MimeTypes
  {
    if e == "js" || e == "css" || e == "jpg" || e == "jpeg" || e == "png" || e == "gif" || e == "ico" {
      CodeAndImageTypesKnown(e);
    } else {
      FontAndVectorTypesKnown(e);
    }
  }

  /** An asset is cached for a year and gets the table's content type for
      its extension, never the default. */
  lemma AssetsHaveKnownTypes(key: string)
    requires IsAsset(key)
    ensures "." + FoldString(LastSegment(key)) in MimeTypes
    ensures MimeType(key) == MimeTypes["." + FoldString(LastSegment(key))]
    ensures CacheControl(key) == Immutable
  {
    AssetIffExtension(key);
    AssetExtensionsKnown(FoldString(LastSegment(key)));
  }

  lemma HtmlFolds()
    ensures FoldString("html") == "html" && FoldString("HTML") == "html"
  {
  }

  lemma HtmlIsNotAsset()
    ensures "html" !in AssetExtensions
  {
  }

  lemma HtmlContentType()
    ensures ContentTypeOf("html") == "text/html; charset=utf-8"
  {
    assert "." + "html" == ".html";
  }

  /** A key whose extension is `html` in any letter case is not an asset. */
  lemma PageIsNotAsset(key: string, ext: string)
    requires ext == "html" || ext == "HTML"
    requires |key| >= 5 && key[|key| - 5] == '.' && key[|key| - 4..] == ext
    ensures !IsAsset(key)
    ensures MimeType(key) == "text/html; charset=utf-8"
  {
    LastSegmentUnique(key, ext);
    HtmlFolds();
    HtmlIsNotAsset();
    HtmlContentType();
    AssetIffExtension(key);
  }

  /** A page is cached for an hour when its suffix is written `.html`. */
  lemma PageRevalidates(base: string)
    ensures CacheControl(base + ".html") == Revalidate
    ensures MimeType(base + ".html") == "text/html; charset=utf-8"
  {
    var key := base + ".html";
    assert key[|key| - 5] == '.' && key[|key| - 4..] == "html";
    PageIsNotAsset(key, "html");
    EndsWithAppend(base, ".html");
  }

  /** The `.html` test of the cache policy is case-sensitive while the
      content-type lookup is not: `.HTML` is served as a page but not cached. */
  lemma UpperCasePageNotCached(base: string)
    ensures CacheControl(base + ".HTML") == NoCache
    ensures MimeType(base + ".HTML") == "text/html; charset=utf-8"
  {
    var key := base + ".HTML";
    assert key[|key| - 5] == '.' && key[|key| - 4..] == "HTML";
    PageIsNotAsset(key, "HTML");
    assert key[|key| - 4] == 'H';
  }

  // ---------------------------------------------------------------- slashes

  predicate NoDoubleSlash(s: string) {
    forall i :: 0 <= i < |s| - 1 ==> !(s[i] == '/' && s[i + 1] == '/')
  }

  /** `key.replace(/\/+/g, '/')`: every run of slashes becomes one slash. */
  function CollapseSlashes(s: string): (r: string)
    ensures |r| <= |s|
    ensures |s| > 0 ==> |r| > 0 && r[0] == s[0]
    decreases |s|
  {
    if |s| <= 1 then s
    else if s[0] == '/' && s[1] == '/' then CollapseSlashes(s[1..])
    else [s[0]] + CollapseSlashes(s[1..])
  }

  /** No two slashes are left side by side. */
  lemma {:induction false} CollapsedHasNoDoubleSlash(s: string)
    ensures NoDoubleSlash(CollapseSlashes(s))
    decreases |s|
  {
    if |s| > 1 {
      CollapsedHasNoDoubleSlash(s[1..]);
    }
  }

  /** A string is left as it is exactly when it has no doubled slash. */
  lemma {:induction false} CollapseIdentityIff(s: string)
    ensures CollapseSlashes(s) == s <==> NoDoubleSlash(s)
    decreases |s|
  {
    CollapsedHasNoDoubleSlash(s);
    if |s| > 1 && NoDoubleSlash(s) {
      assert NoDoubleSlash(s[1..]) by {
        forall i | 0 <= i < |s[1..]| - 1 ensures !(s[1..][i] == '/' && s[1..][i + 1] == '/') {
          assert s[1..][i] == s[i + 1] && s[1..][i + 1] == s[i + 2];
        }
      }
      CollapseIdentityIff(s[1..]);
      assert s == [s[0]] + s[1..];
    }
  }

  /** Dropping one slash of a doubled pair does not change the result: with
      `CollapseIdentityIff` this pins the result down as the unique string
      without a doubled slash that single slashes can be re-doubled into. */
  lemma {:induction false} CollapseDoubleSlash(a: string, b: string)
    ensures CollapseSlashes(a + "//" + b) == CollapseSlashes(a + "/" + b)
    decreases |a|
  {
    if |a| > 0 {
      var x := a + "//" + b;
      var y := a + "/" + b;
      assert x[1..] == a[1..] + "//" + b;
      assert y[1..] == a[1..] + "/" + b;
      assert x[0] == y[0] && x[1] == y[1];
      CollapseDoubleSlash(a[1..], b);
    } else {
      assert a + "//" + b == "/" + ("/" + b);
      assert a + "/" + b == "/" + b;
    }
  }

  /** Characters other than '/' are neither added nor lost. */
  lemma {:induction false} CollapseKeepsOtherChars(s: string, c: char)
    requires c != '/'
    ensures c in CollapseSlashes(s) <==> c in s
    decreases |s|
  {
    if |s| > 1 {
      CollapseKeepsOtherChars(s[1..], c);
      assert s == [s[0]] + s[1..];
    }
  }

  /** A slash-free tail passes through unchanged. */
  lemma {:induction false} CollapseSlashFreeTail(x: string, y: string)
    requires '/' !in y
    ensures CollapseSlashes(x + y) == CollapseSlashes(x) + y
    decreases |x|
  {
    if |x| == 0 {
      assert x + y == y;
      assert NoDoubleSlash(y);
      CollapseIdentityIff(y);
    } else if |x| == 1 {
      if |y| > 0 {
        assert (x + y)[1..] == y;
        assert NoDoubleSlash(y);
        CollapseIdentityIff(y);
      } else {
        assert x + y == x;
      }
    } else {
      assert (x + y)[1..] == x[1..] + y;
      CollapseSlashFreeTail(x[1..], y);
    }
  }

  // ------------------------------------------------------------------- keys

  /** `pathname.slice(1) || 'index.html'`. */
  function RawKey(pathname: string): (k: string)
    ensures |pathname| <= 1 ==> k == "index.html"
    ensures |pathname| > 1 ==> k == pathname[1..]
  {
    if |pathname| <= 1 then "index.html" else pathname[1..]
  }

  /** The key with `.html` appended unless it already ends with it: a key
      that does not is extended by the whole five-character suffix, never
      by a partial overlap such as `a.htm` becoming `a.html`. */
  function WithHtml(k: string): (r: string)
    ensures EndsWith(r, ".html")
    ensures EndsWith(k, ".html") ==> r == k
    ensures StartsWith(r, k) && |r| <= |k| + 5
    ensures !EndsWith(k, ".html") ==> |r| == |k| + 5 && r == k + ".html"
  {
    if EndsWith(k, ".html") then k
    else
      EndsWithAppend(k, ".html");
      StartsWithAppend(k, ".html");
      k + ".html"
  }

  /** The position of the first `c` in `s`, or `|s|`. */
  function IndexOf(s: string, c: char): (i: nat)
    ensures i <= |s|
    ensures c !in s[..i]
    ensures i < |s| ==> s[i] == c
    ensures i == |s| <==> c !in s
    decreases |s|
  {
    if |s| == 0 then 0
    else if s[0] == c then 0
    else
      var j := IndexOf(s[1..], c);
      assert s[..j + 1] == [s[0]] + s[1..][..j];
      j + 1
  }

  /** `key.split('@')` has two parts: the key holds exactly one '@'. */
  predicate OneAt(k: string) {
    var i := IndexOf(k, '@');
    i < |k| && '@' !in k[i + 1..]
  }

  /** The `@` rewrite of `normalizeKey`: with exactly one '@' and a
      non-empty part after it that does not start with '&', an '&' is put
      right after the '@'; every other key is kept. */
  function MarkQuery(k: string): (r: string)
    ensures var i := IndexOf(k, '@');
      r != k <==> OneAt(k) && i + 1 < |k| && k[i + 1] != '&'
    ensures var i := IndexOf(k, '@');
      r != k ==> |r| == |k| + 1 && r[i + 1] == '&' && r[..i + 1] + r[i + 2..] == k
  {
    var i := IndexOf(k, '@');
    if OneAt(k) then
      var base := k[..i];
      var query := k[i + 1..];
      if query != "" && query[0] != '&' then
        var r := base + "@&" + query;
        assert |r| == |k| + 1 && r[i + 1] == '&';
        assert r[..i + 1] + r[i + 2..] == k by {
          assert r[..i + 1] == k[..i + 1];
          assert r[i + 2..] == k[i + 1..];
        }
        r
      else k
    else k
  }

  /** Putting '&' right after the only '@' keeps that '@' the only one. */
  lemma MarkedKey(k: string, i: nat)
    requires OneAt(k) && i == IndexOf(k, '@') && i + 1 < |k|
    ensures var r := k[..i + 1] + "&" + k[i + 1..];
      IndexOf(r, '@') == i && OneAt(r) && r[i + 1] == '&'
  {
    var r := k[..i + 1] + "&" + k[i + 1..];
    assert r[..i] == k[..i] && r[i] == '@' && r[i + 1] == '&';
    assert r[i + 2..] == k[i + 1..];
    assert '@' !in r[..i];
    assert IndexOf(r, '@') == i;
    assert '@' !in r[i + 1..] by {
      assert r[i + 1..] == "&" + r[i + 2..];
    }
  }

  /** After the rewrite a key with a lone '@' and something after it has
      an '&' right after the '@'; doing it again changes nothing. */
  lemma MarkQueryIdempotent(k: string)
    ensures MarkQuery(MarkQuery(k)) == MarkQuery(k)
    ensures OneAt(k) && IndexOf(k, '@') + 1 < |k| ==>
      var r := MarkQuery(k);
      OneAt(r) && r[IndexOf(r, '@') + 1] == '&'
  {
    var i := IndexOf(k, '@');
    if OneAt(k) && i + 1 < |k| && k[i + 1] != '&' {
      MarkedKey(k, i);
    }
  }

  lemma HtmlSuffixHasDot(s: string)
    requires EndsWith(s, ".html")
    ensures '.' in s
  {
    assert s[|s| - 5] == '.';
  }

  /** The rewriting of `normalizeKey` before slashes are collapsed. */
  function Rewrite(k: string): (r: string)
    ensures '@' in k ==> r == WithHtml(MarkQuery(k))
    ensures '@' !in k && ('&' in k || '.' !in k) ==> r == WithHtml(k)
    ensures '@' in k || '&' in k || '.' !in k ==> EndsWith(r, ".html")
    ensures '@' !in k && '&' !in k && '.' in k ==> r == k
    ensures '.' in r
  {
    HtmlSuffixHasDot(WithHtml(MarkQuery(k)));
    HtmlSuffixHasDot(WithHtml(k));
    if '@' in k then WithHtml(MarkQuery(k))
    else if '&' in k then WithHtml(k)
    else if '.' !in k then
      EndsWithAppend(k, ".html");
      assert |k| >= 5 ==> k[|k| - 5] != '.';
      k + ".html"
    else k
  }

  predicate IsApiKey(k: string) {
    StartsWith(k, "api/")
  }

  /** `normalizeKey` on a decoded path. Every key it gives the static
      handler, other than an `api/` one, has no doubled slash and has a dot;
      one with an '@' or '&', or that had no dot, ends with `.html`; a dotted
      one without either only loses doubled slashes. */
  function NormalizeKey(pathname: string): (key: string)
    ensures var k := RawKey(pathname);
      !IsApiKey(k) ==>
      && NoDoubleSlash(key)
      && '.' in key
      && ('@' in k || '&' in k || '.' !in k ==> EndsWith(key, ".html"))
      && ('@' !in k && '&' !in k && '.' in k ==> key == CollapseSlashes(k))
  {
    var k := RawKey(pathname);
    if IsApiKey(k) then k
    else
      var r := Rewrite(k);
      CollapsedHasNoDoubleSlash(r);
      CollapseKeepsOtherChars(r, '.');
      if '@' in k || '&' in k || '.' !in k then
        CollapseKeepsHtml(r);
        CollapseSlashes(r)
      else
        CollapseSlashes(r)
  }

  /** The site root is the index page. */
  lemma RootIsIndex(pathname: string)
    requires |pathname| <= 1
    ensures NormalizeKey(pathname) == "index.html"
  {
    var k := "index.html";
    assert !IsApiKey(k) by {
      NotStartsWithAt(k, "api/", 1);
    }
    assert k[5] == '.';
    assert '@' !in k && '&' !in k;
    assert Rewrite(k) == k;
    assert NoDoubleSlash(k);
    CollapseIdentityIff(k);
  }

  /** An `api/` key is used as it is, doubled slashes and all. */
  lemma ApiKeysUntouched(rest: string)
    ensures NormalizeKey("/api/" + rest) == "api/" + rest
  {
    var p := "/api/" + rest;
    assert p[1..] == "api/" + rest;
    StartsWithAppend("api/", rest);
  }

  /** A key that ends with `.html` before collapsing still does after. */
  lemma CollapseKeepsHtml(s: string)
    requires EndsWith(s, ".html")
    ensures EndsWith(CollapseSlashes(s), ".html")
  {
    var x := s[..|s| - 5];
    assert s == x + ".html";
    CollapseSlashFreeTail(x, ".html");
    EndsWithAppend(CollapseSlashes(x), ".html");
  }

  /** A path without a suffix and the same path with `.html` name the same object. */
  lemma PrettyPathIsPage(name: string)
    requires name != "" && '@' !in name && '&' !in name && '.' !in name
    requires !IsApiKey(name)
    ensures NormalizeKey("/" + name) == NormalizeKey("/" + name + ".html")
  {
    var p := "/" + name;
    var q := "/" + name + ".html";
    assert p[1..] == name;
    assert q[1..] == name + ".html";
    var k := name + ".html";
    assert k[|name|] == '.';
    if |name| < 4 {
      NotStartsWithAt(k, "api/", |name|);
    } else {
      assert k[..4] == name[..4];
    }
    assert '.' in k;
    assert '@' !in k && '&' !in k;
  }

  /** A key with an '@' is the marked key (an '&' put right after a lone
      '@' when something other than '&' follows it) with `.html` appended
      unless it already ends with it, then with slashes collapsed. */
  lemma QueryKeyIsPage(name: string)
    requires '@' in name && !IsApiKey(name)
    ensures NormalizeKey("/" + name) == CollapseSlashes(WithHtml(MarkQuery(name)))
  {
    assert ("/" + name)[1..] == name;
  }

  /** A key with an '&' but no '@' only gains `.html` (unless it already
      ends with it) before slashes are collapsed: no '&' is inserted. */
  lemma AmpersandKeyIsPage(name: string)
    requires '&' in name && '@' !in name && !IsApiKey(name)
    ensures NormalizeKey("/" + name) == CollapseSlashes(WithHtml(name))
  {
    assert ("/" + name)[1..] == name;
  }

  /** A slash-free key never starts with `api/`. */
  lemma SlashFreeIsNotApi(k: string)
    requires '/' !in k
    ensures !IsApiKey(k)
  {
    assert |k| >= 4 ==> k[3] != '/';
  }

  /** A slash-free, dot-free path `base@query`, with exactly one '@' and a
      query that does not start with '&', is looked up as
      `base@&query.html`: for instance `/p@q` as `p@&q.html`. */
  lemma QueryPathIsPage(base: string, query: string)
    requires '@' !in base && '@' !in query
    requires query != "" && query[0] != '&'
    requires '/' !in base && '/' !in query && '.' !in base && '.' !in query
    ensures NormalizeKey("/" + base + "@" + query) == base + "@&" + query + ".html"
  {
    var k := base + "@" + query;
    var m := base + "@&" + query;
    MarkedQuery(base, query);
    assert '/' !in k && '/' !in m && '.' !in m;
    SlashFreeIsNotApi(k);
    assert "/" + base + "@" + query == "/" + k;
    QueryKeyIsPage(k);
    PlainPageKey(m);
  }

  /** Marking `base@query` puts an '&' between the '@' and the query. */
  lemma MarkedQuery(base: string, query: string)
    requires '@' !in base && '@' !in query
    requires query != "" && query[0] != '&'
    ensures MarkQuery(base + "@" + query) == base + "@&" + query
  {
    var k := base + "@" + query;
    var i := |base|;
    assert k[..i] == base && k[i] == '@' && k[i + 1..] == query;
    assert IndexOf(k, '@') == i;
    assert OneAt(k);
    assert base + "@&" + query == k[..i + 1] + "&" + k[i + 1..];
  }

  /** A slash-free, dot-free path with an '&' and no '@' only gains
      `.html`: for instance `/a&b` is looked up as `a&b.html`. */
  lemma AmpersandPathIsPage(name: string)
    requires '&' in name && '@' !in name
    requires '/' !in name && '.' !in name
    ensures NormalizeKey("/" + name) == name + ".html"
  {
    SlashFreeIsNotApi(name);
    AmpersandKeyIsPage(name);
    PlainPageKey(name);
  }

  /** A slash-free, dot-free key becomes exactly itself plus `.html`. */
  lemma PlainPageKey(name: string)
    requires '/' !in name && '.' !in name
    ensures CollapseSlashes(WithHtml(name)) == name + ".html"
  {
    assert |name| >= 5 ==> name[|name| - 5] != '.';
    PlainKeyCollapses(name + ".html");
  }

  /** A key without any slash is left alone by the collapse. */
  lemma PlainKeyCollapses(s: string)
    requires '/' !in s
    ensures CollapseSlashes(s) == s
  {
    CollapseIdentityIff(s);
  }

  /** No dotless name reaches `getMimeType` from the handler: the path
      `/css` is looked up as the page `css.html` and served as HTML. */
  lemma DotlessPathIsPage()
    ensures NormalizeKey("/css") == "css.html"
    ensures MimeType(NormalizeKey("/css")) == "text/html; charset=utf-8"
  {
    var k := "css";
    assert "/css"[1..] == k;
    assert !IsApiKey(k);
    assert '@' !in k && '&' !in k && '.' !in k;
    var key := "css.html";
    assert Rewrite(k) == key;
    assert NoDoubleSlash(key);
    CollapseIdentityIff(key);
    PageRevalidates("css");
  }

  // ------------------------------------------------------------ the handler

  const NotFoundPageKey := "404.html"

  datatype StaticReply =
    | NotFoundPage
    | NotFound
    | NotModified(etag: string, cacheControl: string)
    | Served(contentType: string, cacheControl: string, etag: string)

  function Status(r: StaticReply): int {
    match r
    case NotFoundPage => 404
    case NotFound => 404
    case NotModified(_, _) => 304
    case Served(_, _, _) => 200
  }

  /** `handleStaticFile`: a missing page gets the site's 404 page when the
      bucket has one, any other missing object a plain 404; an object whose
      entity tag the client already holds is a 304; anything else is served
      with the key's content type and cache policy. */
  function HandleStaticFile(pathname: string, ifNoneMatch: Option<string>, files: map<string, string>): (r: StaticReply)
    ensures var key := NormalizeKey(pathname);
      && (Status(r) == 404 <==> key !in files)
      && (r == NotFoundPage <==> key !in files && EndsWith(key, ".html") && NotFoundPageKey in files)
      && (r.NotModified? <==> key in files && Truthy(ifNoneMatch) && ifNoneMatch.value == files[key])
      && (r.NotModified? ==> r == NotModified(files[key], CacheControl(key)))
      && (r.Served? ==> r == Served(MimeType(key), CacheControl(key), files[key]))
  {
    var key := NormalizeKey(pathname);
    if key !in files then
      if EndsWith(key, ".html") && NotFoundPageKey in files then NotFoundPage else NotFound
    else
      var etag := files[key];
      if Truthy(ifNoneMatch) && etag != "" && ifNoneMatch.value == etag then NotModified(etag, CacheControl(key))
      else Served(MimeType(key), CacheControl(key), etag)
  }

  /** A client that sends back the entity tag it was served gets a 304 with
      the same cache policy, and the object is not sent again. */
  lemma RevalidationRoundTrip(pathname: string, files: map<string, string>, first: Option<string>)
    requires HandleStaticFile(pathname, first, files).Served?
    requires HandleStaticFile(pathname, first, files).etag != ""
    ensures var served := HandleStaticFile(pathname, first, files);
      HandleStaticFile(pathname, Some(served.etag), files) == NotModified(served.etag, served.cacheControl)
  {
  }

  /** A stale or absent tag gets the object again. */
  lemma StaleTagIsServed(pathname: string, files: map<string, string>, tag: Option<string>)
    requires NormalizeKey(pathname) in files
    requires !Truthy(tag) || tag.value != files[NormalizeKey(pathname)]
    ensures HandleStaticFile(pathname, tag, files).Served?
  {
  }

  /** A missing object whose key is not a page gets the plain 404 even when
      the site has a 404 page. */
  lemma MissingAssetIsPlain(pathname: string, files: map<string, string>, tag: Option<string>)
    requires NormalizeKey(pathname) !in files && !EndsWith(NormalizeKey(pathname), ".html")
    ensures HandleStaticFile(pathname, tag, files) == NotFound
  {
  }

  /** `/about` and `/about.html` get the same reply. */
  lemma PrettyPathServesPage(name: string, tag: Option<string>, files: map<string, string>)
    requires name != "" && '@' !in name && '&' !in name && '.' !in name
    requires !IsApiKey(name)
    ensures HandleStaticFile("/" + name, tag, files) == HandleStaticFile("/" + name + ".html", tag, files)
  {
    PrettyPathIsPage(name);
  }
}

=== FILE: strings.dfy ===
/** String and sequence helpers shared by every part of the model.

    A Dafny `char` stands for one UTF-16 code unit, which is what the
    JavaScript string operations of the worker count and compare. */
module Strings {

  predicate StartsWith(s: string, prefix: string) {
    |prefix| <= |s| && s[..|prefix|] == prefix
  }

  predicate EndsWith(s: string, suffix: string) {
    |suffix| <= |s| && s[|s| - |suffix|..] == suffix
  }

  /** `s.includes(p)`: some position of `s` starts an occurrence of `p`. */
  predicate Contains(s: string, p: string)
    decreases |s|
  {
    StartsWith(s, p) || (|s| > 0 && Contains(s[1..], p))
  }

  /** ASCII case folding. For the all-ASCII patterns of the worker's `/…/i`
      regular expressions this is exactly JavaScript's case-insensitive
      character comparison, which never maps a non-ASCII character onto an
      ASCII one. */
  function Fold(c: char): char {
    if 'A' <= c <= 'Z' then (c as int + 32) as char else c
  }

  function FoldString(s: string): (r: string)
    ensures |r| == |s|
    ensures forall i :: 0 <= i < |s| ==> r[i] == Fold(s[i])
  {
    seq(|s|, i requires 0 <= i < |s| => Fold(s[i]))
  }

  /** `/p/i.test(s)` for a lower-case ASCII pattern `p`. */
  predicate ContainsFolded(s: string, p: string) {
    Contains(FoldString(s), p)
  }

  /** `/p$/i.test(s)` for a lower-case ASCII pattern `p`. */
  predicate EndsWithFolded(s: string, p: string) {
    EndsWith(FoldString(s), p)
  }

  /** `s.substring(0, n)`: the first `n` characters, or all of `s`. */
  function Take(s: string, n: nat): (r: string)
    ensures |r| == if |s| <= n then |s| else n
    ensures StartsWith(s, r)
  {
    if |s| <= n then s else s[..n]
  }

  /** `xs.slice(-n)` for `n > 0`: the last `n` elements, or all of them. */
  function LastN<T>(xs: seq<T>, n: nat): (r: seq<T>)
    ensures |r| == if |xs| <= n then |xs| else n
    ensures xs == xs[..|xs| - |r|] + r
  {
    if |xs| <= n then xs else xs[|xs| - n..]
  }

  /** `xs.slice(0, n)`: the first `n` elements, or all of them. */
  function First<T>(xs: seq<T>, n: nat): (r: seq<T>)
    ensures |r| == if |xs| <= n then |xs| else n
    ensures r == xs[..|r|]
  {
    if |xs| <= n then xs else xs[..n]
  }

  /** `xs.slice(start, end)` for non-negative bounds: the elements from
      `start` up to but excluding `end`, both clamped to the length. */
  function Slice<T>(xs: seq<T>, start: nat, end: nat): (r: seq<T>)
    ensures forall i :: 0 <= i < |r| ==> start + i < |xs| && r[i] == xs[start + i]
    ensures |r| == 0 || (start + |r| <= end && (start + |r| == end || start + |r| == |xs|))
    ensures |r| == 0 ==> start >= end || start >= |xs|
  {
    var hi := if end <= |xs| then end else |xs|;
    if start < hi then xs[start..hi] else []
  }

  /** `xs.filter(keep)`: the elements that pass, in their original order. */
  function Filter<T>(xs: seq<T>, keep: T -> bool): (r: seq<T>)
    ensures |r| <= |xs|
    ensures forall i :: 0 <= i < |r| ==> r[i] in xs && keep(r[i])
    ensures forall i :: 0 <= i < |xs| && keep(xs[i]) ==> xs[i] in r
  {
    if |xs| == 0 then []
    else (if keep(xs[0]) then [xs[0]] else []) + Filter(xs[1..], keep)
  }

  /** A filter of one element keeps it exactly when it passes. */
  lemma FilterOne<T>(x: T, keep: T -> bool)
    ensures Filter([x], keep) == if keep(x) then [x] else []
  {
    assert [x][1..] == [];
  }

  /** Filtering a concatenation filters each part in turn: together with
      `FilterOne` this pins down `Filter` as the in-order selection. */
  lemma {:induction false} FilterAppend<T>(xs: seq<T>, ys: seq<T>, keep: T -> bool)
    ensures Filter(xs + ys, keep) == Filter(xs, keep) + Filter(ys, keep)
    decreases |xs|
  {
    if |xs| > 0 {
      assert (xs + ys)[0] == xs[0];
      assert (xs + ys)[1..] == xs[1..] + ys;
      FilterAppend(xs[1..], ys, keep);
    } else {
      assert xs + ys == ys;
    }
  }

  /** The pieces joined end to end, in order. */
  function Concat(parts: seq<string>): (r: string)
    ensures |parts| == 0 ==> r == ""
    ensures |parts| > 0 ==> StartsWith(r, parts[0])
  {
    if |parts| == 0 then "" else
      var rest := Concat(parts[1..]);
      assert (parts[0] + rest)[..|parts[0]|] == parts[0];
      parts[0] + rest
  }

  lemma AppendTwo<T>(xs: seq<T>, a: T, b: T)
    ensures xs + [a] + [b] == xs + [a, b]
    ensures |xs| >= 2 ==> (xs + [a, b])[2..] == xs[2..] + [a, b]
  {
  }

  lemma StartsWithAppend(p: string, s: string)
    ensures StartsWith(p + s, p)
  {
    assert (p + s)[..|p|] == p;
  }

  lemma EndsWithAppend(s: string, suffix: string)
    ensures EndsWith(s + suffix, suffix)
  {
    assert (s + suffix)[|s|..] == suffix;
  }

  /** Two strings that differ at a position inside `p` cannot both start with `p`. */
  lemma NotStartsWithAt(s: string, p: string, i: nat)
    requires i < |s| && i < |p| && s[i] != p[i]
    ensures !StartsWith(s, p)
  {
  }
}

=== FILE: useragent.dfy ===
/** Who is calling: the caller address used for rate limiting and the
    descriptive fields recorded with every answered chat turn. */
module UserAgent {
  import opened Strings
  import opened Js
  import opened Kv

  datatype Agent = Agent(device: string, browser: string, os: string)

  /** `parseUserAgent`: three independent first-match-wins classifications of
      the user-agent text, each by case-insensitive substring tests. */
  function ParseUserAgent(ua: string): (a: Agent)
    ensures a.device == "Mobile" <==> ContainsFolded(ua, "mobile")
    ensures a.device == "Tablet" <==>
      !ContainsFolded(ua, "mobile") && (ContainsFolded(ua, "tablet") || ContainsFolded(ua, "ipad"))
    ensures a.device in {"Mobile", "Tablet", "Desktop"}
    ensures a.browser == "Edge" <==> ContainsFolded(ua, "edg")
    ensures a.browser == "Chrome" <==> !ContainsFolded(ua, "edg") && ContainsFolded(ua, "chrome")
    ensures a.browser in {"Edge", "Chrome", "Firefox", "Safari", "Opera", "Unknown"}
    ensures a.os == "Windows" <==> ContainsFolded(ua, "windows")
    ensures a.os == "Linux" <==>
      && !ContainsFolded(ua, "windows")
      && !ContainsFolded(ua, "macintosh") && !ContainsFolded(ua, "mac os x")
      && ContainsFolded(ua, "linux")
    ensures a.os in {"Windows", "macOS", "Linux", "Android", "iOS", "Unknown"}
  {
    var device :=
      if ContainsFolded(ua, "mobile") then "Mobile"
      else if ContainsFolded(ua, "tablet") || ContainsFolded(ua, "ipad") then "Tablet"
      else "Desktop";
    var browser :=
      if ContainsFolded(ua, "edg") then "Edge"
      else if ContainsFolded(ua, "chrome") then "Chrome"
      else if ContainsFolded(ua, "firefox") then "Firefox"
      else if ContainsFolded(ua, "safari") then "Safari"
      else if ContainsFolded(ua, "opera") || ContainsFolded(ua, "opr") then "Opera"
      else "Unknown";
    var os :=
      if ContainsFolded(ua, "windows") then "Windows"
      else if ContainsFolded(ua, "macintosh") || ContainsFolded(ua, "mac os x") then "macOS"
      else if ContainsFolded(ua, "linux") then "Linux"
      else if ContainsFolded(ua, "android") then "Android"
      else if ContainsFolded(ua, "iphone") || ContainsFolded(ua, "ipad") || ContainsFolded(ua, "ipod") then "iOS"
      else "Unknown";
    Agent(device, browser, os)
  }

  /** Every pattern any of the three classifications tests for. */
  const AllPatterns: set<string> :=
    { "mobile", "tablet", "ipad", "edg", "chrome", "firefox", "safari", "opera", "opr"
    , "windows", "macintosh", "mac os x", "linux", "android", "iphone", "ipod" }

  /** For each pattern, one of its letters that "unknown" lacks. */
  function AbsentLetter(p: string): (c: char)
    requires p in AllPatterns
    ensures c in p && c !in "unknown"
  {
    if p == "mobile" || p == "macintosh" || p == "mac os x" then 'm'
    else if p == "tablet" then 't'
    else if p == "edg" then 'e'
    else if p == "chrome" then 'c'
    else if p == "firefox" then 'f'
    else if p == "safari" then 's'
    else if p == "opera" || p == "opr" then 'p'
    else if p == "linux" then 'l'
    else if p == "android" then 'a'
    else 'i'
  }

  /** One line of an ordered classification table: any of the patterns
      selects the verdict. */
  datatype Rule = Rule(patterns: seq<string>, verdict: string)

  predicate MatchesAny(ua: string, patterns: seq<string>) {
    |patterns| > 0 && (ContainsFolded(ua, patterns[0]) || MatchesAny(ua, patterns[1..]))
  }

  predicate Matches(ua: string, rule: Rule) {
    MatchesAny(ua, rule.patterns)
  }

  /** The verdict of the first rule that matches, or the default. */
  function FirstMatch(ua: string, rules: seq<Rule>, default: string): string {
    if |rules| == 0 then default
    else if Matches(ua, rules[0]) then rules[0].verdict
    else FirstMatch(ua, rules[1..], default)
  }

  const DeviceRules: seq<Rule> :=
    [Rule(["mobile"], "Mobile"), Rule(["tablet", "ipad"], "Tablet")]

  const BrowserRules: seq<Rule> :=
    [ Rule(["edg"], "Edge"), Rule(["chrome"], "Chrome"), Rule(["firefox"], "Firefox")
    , Rule(["safari"], "Safari"), Rule(["opera", "opr"], "Opera") ]

  const OsRules: seq<Rule> :=
    [ Rule(["windows"], "Windows"), Rule(["macintosh", "mac os x"], "macOS")
    , Rule(["linux"], "Linux"), Rule(["android"], "Android")
    , Rule(["iphone", "ipad", "ipod"], "iOS") ]

  /** The verdict chosen by an ordered table is that of the earliest matching
      rule: every rule before it fails to match. */
  lemma {:induction false} FirstMatchIsEarliest(ua: string, rules: seq<Rule>, default: string, i: nat)
    requires i < |rules| && Matches(ua, rules[i])
    requires forall j :: 0 <= j < i ==> !Matches(ua, rules[j])
    ensures FirstMatch(ua, rules, default) == rules[i].verdict
  {
    if i > 0 {
      assert !Matches(ua, rules[0]);
      FirstMatchIsEarliest(ua, rules[1..], default, i - 1);
    }
  }

  /** When no rule matches, the table yields its default. */
  lemma {:induction false} FirstMatchDefault(ua: string, rules: seq<Rule>, default: string)
    requires forall j :: 0 <= j < |rules| ==> !Matches(ua, rules[j])
    ensures FirstMatch(ua, rules, default) == default
  {
    if |rules| > 0 {
      assert !Matches(ua, rules[0]);
      FirstMatchDefault(ua, rules[1..], default);
    }
  }

  /** The three classifications are the ordered tables `DeviceRules`,
      `BrowserRules` and `OsRules` with defaults Desktop, Unknown, Unknown. */
  lemma FirstMatchStep(ua: string, rules: seq<Rule>, default: string)
    requires |rules| > 0
    ensures FirstMatch(ua, rules, default)
      == if Matches(ua, rules[0]) then rules[0].verdict else FirstMatch(ua, rules[1..], default)
  {
  }

  lemma MatchesStep(ua: string, patterns: seq<string>)
    requires |patterns| > 0
    ensures MatchesAny(ua, patterns) <==> ContainsFolded(ua, patterns[0]) || MatchesAny(ua, patterns[1..])
  {
  }

  lemma MatchesOne(ua: string, p: string)
    ensures MatchesAny(ua, [p]) <==> ContainsFolded(ua, p)
  {
    MatchesStep(ua, [p]);
    assert [p][1..] == [];
  }

  lemma MatchesTwo(ua: string, p: string, q: string)
    ensures MatchesAny(ua, [p, q]) <==> ContainsFolded(ua, p) || ContainsFolded(ua, q)
  {
    MatchesStep(ua, [p, q]);
    assert [p, q][1..] == [q];
    MatchesOne(ua, q);
  }

  lemma MatchesThree(ua: string, p: string, q: string, r: string)
    ensures MatchesAny(ua, [p, q, r]) <==> ContainsFolded(ua, p) || ContainsFolded(ua, q) || ContainsFolded(ua, r)
  {
    MatchesStep(ua, [p, q, r]);
    assert [p, q, r][1..] == [q, r];
    MatchesTwo(ua, q, r);
  }

  lemma DeviceIsFirstMatch(ua: string)
    ensures ParseUserAgent(ua).device == FirstMatch(ua, DeviceRules, "Desktop")
  {
    var d := DeviceRules;
    FirstMatchStep(ua, d, "Desktop");
    FirstMatchStep(ua, d[1..], "Desktop");
    assert d[1..][1..] == [];
    MatchesOne(ua, "mobile");
    MatchesTwo(ua, "tablet", "ipad");
  }

  lemma BrowserIsFirstMatch(ua: string)
    ensures ParseUserAgent(ua).browser == FirstMatch(ua, BrowserRules, "Unknown")
  {
    var b := BrowserRules;
    var t1, t2, t3, t4 := b[1..], b[2..], b[3..], b[4..];
    assert t1[1..] == t2 && t2[1..] == t3 && t3[1..] == t4 && t4[1..] == [];
    FirstMatchStep(ua, b, "Unknown");
    FirstMatchStep(ua, t1, "Unknown");
    FirstMatchStep(ua, t2, "Unknown");
    FirstMatchStep(ua, t3, "Unknown");
    FirstMatchStep(ua, t4, "Unknown");
    MatchesOne(ua, "edg");
    MatchesOne(ua, "chrome");
    MatchesOne(ua, "firefox");
    MatchesOne(ua, "safari");
    MatchesTwo(ua, "opera", "opr");
  }

  lemma OsIsFirstMatch(ua: string)
    ensures ParseUserAgent(ua).os == FirstMatch(ua, OsRules, "Unknown")
  {
    var o := OsRules;
    var t1, t2, t3, t4 := o[1..], o[2..], o[3..], o[4..];
    assert t1[1..] == t2 && t2[1..] == t3 && t3[1..] == t4 && t4[1..] == [];
    FirstMatchStep(ua, o, "Unknown");
    FirstMatchStep(ua, t1, "Unknown");
    FirstMatchStep(ua, t2, "Unknown");
    FirstMatchStep(ua, t3, "Unknown");
    FirstMatchStep(ua, t4, "Unknown");
    MatchesOne(ua, "windows");
    MatchesTwo(ua, "macintosh", "mac os x");
    MatchesOne(ua, "linux");
    MatchesOne(ua, "android");
    MatchesThree(ua, "iphone", "ipad", "ipod");
  }

  /** The three classifications are the ordered tables `DeviceRules`,
      `BrowserRules` and `OsRules` with defaults Desktop, Unknown, Unknown. */
  lemma ParseUserAgentIsFirstMatch(ua: string)
    ensures ParseUserAgent(ua) ==
      Agent(FirstMatch(ua, DeviceRules, "Desktop"),
            FirstMatch(ua, BrowserRules, "Unknown"),
            FirstMatch(ua, OsRules, "Unknown"))
  {
    DeviceIsFirstMatch(ua);
    BrowserIsFirstMatch(ua);
    OsIsFirstMatch(ua);
  }

  /** A pattern can only occur in a text that holds each of its characters. */
  lemma {:induction false} ContainsHasChars(s: string, p: string, c: char)
    requires Contains(s, p) && c in p
    ensures c in s
    decreases |s|
  {
    if StartsWith(s, p) {
      var k :| 0 <= k < |p| && p[k] == c;
      assert s[k] == s[..|p|][k];
    } else {
      ContainsHasChars(s[1..], p, c);
    }
  }

  lemma NotContainsWithout(s: string, p: string, c: char)
    requires c in p && c !in s
    ensures !Contains(s, p)
  {
    if Contains(s, p) {
      ContainsHasChars(s, p, c);
    }
  }

  lemma FoldUnknown()
    ensures FoldString("Unknown") == "unknown"
  {
    var f := FoldString("Unknown");
    assert |f| == 7;
    assert f[0] == 'u' && f[1] == 'n' && f[2] == 'k' && f[3] == 'n';
    assert f[4] == 'o' && f[5] == 'w' && f[6] == 'n';
  }

  /** A text that contains none of the patterns gets the three defaults. */
  lemma NoPatternDefaults(ua: string)
    requires forall p :: p in AllPatterns ==> !ContainsFolded(ua, p)
    ensures ParseUserAgent(ua) == Agent("Desktop", "Unknown", "Unknown")
  {
    assert "mobile" in AllPatterns && "tablet" in AllPatterns && "ipad" in AllPatterns;
    assert "edg" in AllPatterns && "chrome" in AllPatterns && "firefox" in AllPatterns;
    assert "safari" in AllPatterns && "opera" in AllPatterns && "opr" in AllPatterns;
    assert "windows" in AllPatterns && "macintosh" in AllPatterns && "mac os x" in AllPatterns;
    assert "linux" in AllPatterns && "android" in AllPatterns;
    assert "iphone" in AllPatterns && "ipod" in AllPatterns;
  }

  /** A request without a user-agent header is classified from the text
      "Unknown", which matches no pattern: Desktop, Unknown browser, Unknown OS. */
  lemma MissingAgentDefaults(ua: string)
    requires ua == "Unknown"
    ensures ParseUserAgent(ua) == Agent("Desktop", "Unknown", "Unknown")
  {
    FoldUnknown();
    var f := FoldString(ua);
    forall p | p in AllPatterns ensures !ContainsFolded(ua, p) {
      var c := AbsentLetter(p);
      assert c in p && c !in f;
      NotContainsWithout(f, p, c);
    }
    NoPatternDefaults(ua);
  }

  /** `headers.get(name) || undefined`: a header counts only when non-empty.
      Header names are taken as already lower-cased. */
  function Header(headers: map<string, string>, name: string): (v: Option<string>)
    ensures v.Some? <==> name in headers && headers[name] != ""
    ensures v.Some? ==> v.value == headers[name]
  {
    if Truthy(Get(headers, name)) then Some(headers[name]) else None
  }

  /** `s.split(',')[0]`: the text before the first comma. */
  function FirstSegment(s: string): (r: string)
    ensures StartsWith(s, r) && ',' !in r
    ensures |r| < |s| ==> s[|r|] == ','
  {
    if |s| == 0 || s[0] == ',' then "" else [s[0]] + FirstSegment(s[1..])
  }

  datatype UserInfo = UserInfo(
    ip: string,
    country: Option<string>,
    city: Option<string>,
    region: Option<string>,
    timezone: Option<string>,
    latitude: Option<string>,
    longitude: Option<string>,
    asn: Option<string>,
    userAgent: string,
    referer: Option<string>,
    language: Option<string>,
    device: string,
    browser: string,
    os: string,
    timestamp: string)

  /** The caller address the rate limit is keyed on: the `cf-connecting-ip`
      header, or "Unknown" when it is missing or empty. */
  function CallerAddress(headers: map<string, string>): (ip: string)
    ensures ip != ""
    ensures ip != "Unknown" ==> "cf-connecting-ip" in headers && headers["cf-connecting-ip"] == ip
  {
    if Header(headers, "cf-connecting-ip").Some? then headers["cf-connecting-ip"] else "Unknown"
  }

  /** `collectUserInfo`: never fails; a missing caller address or user agent
      becomes "Unknown", other missing headers stay absent. `now` stands for
      `new Date().toISOString()`. */
  function CollectUserInfo(headers: map<string, string>, now: string): (u: UserInfo)
    ensures u.ip == CallerAddress(headers)
    ensures u.userAgent == if Header(headers, "user-agent").Some? then headers["user-agent"] else "Unknown"
    ensures Agent(u.device, u.browser, u.os) == ParseUserAgent(u.userAgent)
    ensures u.language.None? <==>
      "accept-language" !in headers || headers["accept-language"] == "" || headers["accept-language"][0] == ','
    ensures u.language.Some? ==>
      var h := headers["accept-language"];
      var v := u.language.value;
      && "accept-language" in headers
      && StartsWith(h, v) && ',' !in v
      && (|v| < |h| ==> h[|v|] == ',')
    ensures u.country == Header(headers, "cf-ipcountry") && u.referer == Header(headers, "referer")
    ensures u.city == Header(headers, "cf-ipcity") && u.region == Header(headers, "cf-region")
    ensures u.timezone == Header(headers, "cf-timezone") && u.asn == Header(headers, "cf-asn")
    ensures u.latitude == Header(headers, "cf-iplat") && u.longitude == Header(headers, "cf-iplon")
    ensures u.timestamp == now
  {
    var ua := if Header(headers, "user-agent").Some? then headers["user-agent"] else "Unknown";
    var agent := ParseUserAgent(ua);
    var language :=
      match Get(headers, "accept-language")
      case None => None
      case Some(v) => if FirstSegment(v) == "" then None else Some(FirstSegment(v));
    UserInfo(
      CallerAddress(headers),
      Header(headers, "cf-ipcountry"),
      Header(headers, "cf-ipcity"),
      Header(headers, "cf-region"),
      Header(headers, "cf-timezone"),
      Header(headers, "cf-iplat"),
      Header(headers, "cf-iplon"),
      Header(headers, "cf-asn"),
      ua,
      Header(headers, "referer"),
      language,
      agent.device,
      agent.browser,
      agent.os,
      now)
  }
}
